=== FILE: README.md ===
# Petshop backend: controllers and request schemas

This project models the request handling of a pet-shop booking backend. Users
register dogs, browse a global catalogue of services (bath, grooming, ...) and
book appointments that link some of their dogs to some services. The backend
is an Express application over a relational store.

Two parts are modelled:

* **The request schemas** (module `AppointmentSchema`, `DogSchema`,
  `UserSchema`). Each is an accept/reject predicate over the JSON body as sent.
  The validating middleware discards what the schema parses
  (`src/middlewares/validateSchema.ts:14`), so a schema is a gate and nothing
  more. The handler behind it receives the unmodified body. Body fields are
  therefore `Option`s. The ages (`idade`) are JSON numbers and so are `real`,
  which lets the model see a fractional age reach the store. A service price is
  an `int` of cents, and an appointment date is an `int` instant standing for
  the JSON date string.
  Dafny strings are sequences of characters (code points), but JavaScript
  counts a string's length, and runs a regular expression without the `u`
  flag, in UTF-16 code units. A character outside the Basic Multilingual Plane
  is one character and two code units. The length bounds of the schemas
  therefore use `Text.JsLength`, the length of the string's UTF-16 encoding.
* **The handlers** (modules `AppointmentController`, `DogController`,
  `ServiceController`, `UserController`) over an in-memory stand-in for the
  store (module `Persistence`):
  * The store is the class `Persistence.Store`: four tables keyed by id and two
    join tables of `(appointmentId, dogId)` and `(appointmentId, serviceId)`
    rows.
  * A read handler is a function of the tables (`Tables`). A write handler is a
    method on the store that returns the HTTP status.
  * Every write method keeps the store's integrity rules (`Persistence.Consistent`).
    It also states its whole new state, or that nothing changed.

The store's own rules are written out as explicit assumptions, because the
database schema is not part of this model:

* unique `email` and `cpf` for users, and a unique `name` for services;
* foreign keys from dogs and appointments to users, and from join rows to their
  appointment and their dog or service;
* join rows cascade when their appointment is deleted;
* join rows block (restrict) the deletion of the dog or service they point at;
* deleting a user deletes their dogs and appointments.

One more rule, part of `Persistence.Consistent`, is kept by the handlers and not
by the store: a dog linked to an appointment belongs to the appointment's user.
The ownership-filtered count check keeps it on appointment writes, and the
corrected dog update keeps it by never changing an owner.

A request the store refuses fails as a whole and writes nothing. Refusals
include a missing required column, a non-integer in an integer column and a
string outside an enum. The store's error codes map to statuses:

| store error | status | handlers |
|---|---|---|
| missing row (P2025) | 404 | updateService, deleteService, updateUser, deleteUser (the dog and appointment update and delete handlers map it too, but look the row up first, so only a concurrent deletion reaches it) |
| unique-key clash (P2002) | 409 | createService, updateService, updateUser |
| foreign-key refusal (P2003) | 409 | deleteService |
| any error in another handler, including P2025, P2002 and P2003 (a missing owner in createDog and createAppointment, a booked dog in deleteDog) | 500 | every other handler |

The caller's identity, which the real system takes from a verified token, is a
plain parameter of every handler. The store's fresh ids are parameters too.

The appointment handlers check that every listed dog or service exists by
counting. They ask the store for the rows whose id is in the list, then compare
how many rows came back with the length of the list. `AppointmentController.CountCheckIff`
proves that this passes exactly when every id is valid and no id is repeated.

The code compares with the raw list length, so it refuses a list that repeats
an id, even when every id is valid.

## Model

| member | source | states |
|---|---|---|
| `Persistence.ParseStatus` | src/schemas/zod/appointmentSchema.ts:4 | a status text is accepted iff it is AGENDADO, CONCLUIDO or CANCELADO, and each of them maps to the member of the same name |
| `Persistence.ParsePorte` | src/schemas/zod/dogSchema.ts:4 | a porte text is accepted iff it is PEQUENO, MEDIO or GRANDE, and each of them maps to the member of the same name |
| `Persistence.Unlink` | src/controllers/appointmentController.ts:174 | deleting an appointment's join rows empties its set and leaves every other appointment's set unchanged |
| `Persistence.LinkAll` | src/controllers/appointmentController.ts:176 | the rows inserted for an appointment link it to exactly the listed ids and touch no other appointment |
| `Persistence.ReplaceLinks` | src/controllers/appointmentController.ts:173-177 | delete-then-insert makes an appointment's join set exactly the listed ids, other appointments untouched |
| `Text.JsLengthBounds` | src/schemas/zod/userSchema.ts:9-10 | the JavaScript length of a string is between its number of characters and twice that, and equals it iff no character lies outside the Basic Multilingual Plane |
| `Text.LexLeqTotal` | src/controllers/dogController.ts:79 | any two names are comparable, so ordering by a text column is well defined |
| `AppointmentSchema.UpdateAcceptsStatusOnly` | src/schemas/zod/appointmentSchema.ts:17-25 | `{}` is a valid update, and so is a body carrying only a status of the enum |
| `AppointmentSchema.UpdateRejectsBadFields` | src/schemas/zod/appointmentSchema.ts:22-24 | a present status outside the enum, or a present empty id list, is refused |
| `AppointmentSchema.CreateImpliesUpdate` | src/schemas/zod/appointmentSchema.ts:6-25 | every body the create schema accepts is also accepted by the update schema once its `status` key, which create ignores, is dropped |
| `AppointmentSchema.StaleThresholdAcceptsPastDate` | src/schemas/zod/appointmentSchema.ts:7-10 | the schemas take the threshold time `since` as an argument: with `since` the load time, a past date is accepted a day later; with `since` the request time it is refused |
| `AppointmentSchema.AcceptedDateIsInFuture` | src/schemas/zod/appointmentSchema.ts:7-10 | under the request-time threshold an accepted date lies at least 60000 ms after the request |
| `AppointmentSchema.AcceptedUpdateDateIsInFuture` | src/schemas/zod/appointmentSchema.ts:18-21 | the same for a date supplied in an update |
| `DogSchema.CreateDogSchemaIsDogSchema` | src/schemas/zod/dogSchema.ts:25 | `createDogSchema` accepts exactly what `dogSchema` accepts: all four fields are required in both |
| `DogSchema.IdadeOkIff` | src/schemas/zod/dogSchema.ts:8 | an age is accepted iff it is one of the whole numbers 1..20 |
| `DogSchema.RacaCaseInsensitive` | src/schemas/zod/dogSchema.ts:9-19 | the breed is looked up lowercased, so two spellings that differ only in case are accepted or refused together |
| `DogSchema.PorteOkIff` | src/schemas/zod/dogSchema.ts:20-22 | a porte is accepted iff it names one of the three sizes |
| `UserSchema.CpfOkIff` | src/schemas/zod/userSchema.ts:3 | a cpf is accepted iff it is exactly 11 ASCII digits; the extra length cap adds nothing |
| `UserSchema.PhoneOkIsRegex` | src/schemas/zod/userSchema.ts:5 | the staged phone matcher accepts exactly the language of the Brazilian phone pattern |
| `UserSchema.PhoneDigits` | src/schemas/zod/userSchema.ts:5 | every accepted phone has exactly 11 digits and the third is 9 |
| `UserSchema.PhoneAcceptsMobileNumbers` | src/schemas/zod/userSchema.ts:5 | an 11-digit mobile number with 9 third is accepted both bare and as "(XX) 9XXXX-XXXX" |
| `UserSchema.RegisteredProfileIsValidUpdate` | src/schemas/zod/userSchema.ts:8-39 | the profile fields of an accepted registration form an accepted update, and so does `{}` |
| `UserSchema.PasswordOkIsRegex` | src/schemas/zod/userSchema.ts:4 | a password is accepted iff `^.{8,}$`, run over its UTF-16 code units, matches: at least eight code units and no line terminator |
| `UserSchema.PasswordCountsCodeUnits` | src/schemas/zod/userSchema.ts:4 | four emoji (eight code units) make a valid password, and seven ASCII letters do not |
| `UserSchema.RegisteredPasswordPassesLogin` | src/schemas/zod/userSchema.ts:19-26 | a password registration accepts also passes login's non-empty check |
| `AppointmentController.ElementsCard` | src/controllers/appointmentController.ts:15-22 | a list has at most as many distinct ids as entries, and as many exactly when no id repeats |
| `AppointmentController.CountCheckIff` | src/controllers/appointmentController.ts:15-33 | "rows found == ids listed" holds iff every id is valid and no id repeats |
| `AppointmentController.DogIdsValid` | src/controllers/appointmentController.ts:15-24 | the dog check passes iff every listed dog exists, is the caller's, and none repeats |
| `AppointmentController.ServiceIdsValid` | src/controllers/appointmentController.ts:27-33 | the service check passes iff every listed service exists and none repeats |
| `AppointmentController.CreateAppointment` | src/controllers/appointmentController.ts:8-78 | the dog check (400) comes before the service check (400); a missing list, date or caller is 500; any failure writes nothing; on 201 the new appointment is the caller's, AGENDADO, and linked to exactly the listed dogs and services |
| `AppointmentController.GetAppointmentById` | src/controllers/appointmentController.ts:83-114 | 200 iff the appointment exists and is the caller's, else 404; it shows the caller's nome, email and telefone and exactly its linked dogs and services, every dog being the caller's |
| `AppointmentController.GetAllAppointments` | src/controllers/appointmentController.ts:119-144 | exactly the caller's appointments, each once, with their dogs' and services' summaries, earliest date first |
| `AppointmentController.AppointmentUpdate` | src/controllers/appointmentController.ts:163-200 | net effect of an update: date and status change only when supplied; a supplied list becomes the join set; an omitted list and every other appointment keep theirs; a status outside the enum fails the whole update |
| `Persistence.ApplyOp` | src/controllers/appointmentController.ts:173-200 | a statement of the update transaction that succeeds leaves users, dogs and services as they are and creates or deletes no appointment |
| `Persistence.ApplyAll` | src/controllers/appointmentController.ts:193-200 | an empty batch changes nothing; a batch whose first statement fails yields nothing; a batch that succeeds keeps users, dogs, services and the set of appointments |
| `AppointmentController.ApplyAllAppend` | src/controllers/appointmentController.ts:193-200 | running a queued batch in two parts is running the first part, then the second on its result, failing if either fails |
| `AppointmentController.UpdateBatchEffect` | src/controllers/appointmentController.ts:165-200 | the queued batch the handler builds has exactly the net effect `AppointmentUpdate` states |
| `AppointmentController.AppointmentUpdateConsistent` | src/controllers/appointmentController.ts:168-191 | an update that passed its checks keeps the integrity rules, including the handlers' own rule that every linked dog belongs to the appointment's user |
| `AppointmentController.AcceptedUpdateCommits` | src/controllers/appointmentController.ts:193-200 | behind the update schema the transaction never fails |
| `AppointmentController.UpdateAppointment` | src/controllers/appointmentController.ts:149-229 | an absent or foreign appointment is 404; the dog check (400) comes before the service check (400); a bad status is 500; none of these writes anything; 200 commits exactly `AppointmentUpdate` |
| `AppointmentController.DeleteAppointment` | src/controllers/appointmentController.ts:234-257 | an absent or foreign appointment is 404 and nothing changes; 204 removes the appointment and all its join rows |
| `DogController.AcceptedDogIsStoredAsSent` | src/controllers/dogController.ts:8-22 | a body the create schema accepts is always storable; it is stored as sent (the breed keeps the client's case) and owned by the caller |
| `DogController.NewDog` | src/controllers/dogController.ts:14-22 | the store refuses the new row iff a field is missing, the age is not whole or the porte is outside the enum; otherwise it holds the body's fields as sent and the caller as owner |
| `DogController.CreateDog` | src/controllers/dogController.ts:8-29 | 201 iff the body is storable and the caller exists; the new dog's owner is the caller; 500 writes nothing |
| `DogController.GetDogById` | src/controllers/dogController.ts:34-68 | 404 iff the dog is absent; any caller may read any dog; the owner's contact is shown iff `includeOwner` is "true" and the caller is the owner |
| `DogController.GetAllDogs` | src/controllers/dogController.ts:73-87 | exactly the caller's dogs, each once, by name ascending |
| `DogController.PatchDog` | src/controllers/dogController.ts:110-113 | corrected update: the store refuses it iff the age is not whole or the porte is outside the enum; each supplied field is written, each omitted one keeps its stored value, and the owner never changes |
| `DogController.PatchDogAsWritten` | src/controllers/dogController.ts:110-113 | as written: the body's `ownerId` key, if present, becomes the dog's owner |
| `DogController.AsWrittenUpdateBreaksOwnership` | src/controllers/dogController.ts:92-113 | a schema-accepted update by the owner hands a booked dog to another user, breaking the rule that booked dogs belong to the appointment's user |
| `DogController.AcceptedUpdateIsStored` | src/controllers/dogController.ts:110-113 | behind `dogSchema` the store never refuses an update, and every body field is written |
| `DogController.UpdateDog` | src/controllers/dogController.ts:92-123 | an absent dog is 404, checked before the owner gate (403); a refused body is 500; none of these writes anything; 200 writes exactly the patched dog |
| `DogController.DeleteDog` | src/controllers/dogController.ts:128-157 | 404, then 403, as for updates; a dog still booked is protected by the store and the handler answers 500; 204 removes exactly that dog |
| `ServiceController.CreateService` | src/controllers/serviceController.ts:8-24 | a missing field is 500 and a taken name is 409, and neither writes anything; 201 adds exactly the new service |
| `ServiceController.GetServiceById` | src/controllers/serviceController.ts:29-46 | 404 iff the service is absent, otherwise the service |
| `ServiceController.GetAllServices` | src/controllers/serviceController.ts:51-62 | every service once, by name ascending |
| `ServiceController.PatchService` | src/controllers/serviceController.ts:72-75 | a supplied name or price replaces the stored one, an omitted one stays |
| `ServiceController.UpdateService` | src/controllers/serviceController.ts:67-88 | any caller may update; absent is 404; a name another service has is 409; a supplied field replaces the stored one, an omitted one stays |
| `ServiceController.DeleteService` | src/controllers/serviceController.ts:93-113 | any caller may delete; absent is 404; still booked is 409 and nothing is deleted; 204 removes exactly that service |
| `UserController.PublicViewHidesOnlyHash` | src/controllers/userController.ts:14-17 | the public view hides the password hash and nothing else: two rows show the same view iff they differ at most in their hash |
| `UserController.GetUserById` | src/controllers/userController.ts:8-29 | 404 iff the user is absent, otherwise the public view |
| `UserController.GetAllUsers` | src/controllers/userController.ts:34-49 | every user once, as public views, newest first |
| `UserController.ReadsIgnorePasswordHash` | src/controllers/userController.ts:12-42 | changing a password hash changes nothing either read returns |
| `UserController.CreateUser` | src/controllers/userController.ts:54-57 | always 405 and touches nothing |
| `UserController.PatchUser` | src/controllers/userController.ts:72-80 | corrected update: the store refuses it iff the age is not whole; each supplied profile field (nome, email, cpf, idade, telefone) is written, each omitted one keeps its stored value, and the password hash and creation time never change |
| `UserController.PatchUserAsWritten` | src/controllers/userController.ts:72-80 | as written: the body's `passwordHash` and `createdAt` keys, when present, overwrite those columns |
| `UserController.AsWrittenUpdateOverwritesHash` | src/controllers/userController.ts:63-80 | a schema-accepted update replaces the stored password hash by the text the client sent, where the corrected update keeps it |
| `UserController.AcceptedUpdateIsStored` | src/controllers/userController.ts:72-80 | behind `updateUserSchema` the store never refuses the data, and every supplied field (nome, email, cpf, idade, telefone) is written and meets its schema check |
| `UserController.UpdateUser` | src/controllers/userController.ts:63-93 | someone else's profile is 403 before anything is read; then 500 for a non-whole age, 404 for a missing user, 409 for an email or cpf another user has; only 200 writes, exactly the corrected patch, and returns the public view |
| `UserController.WithoutUser` | src/controllers/userController.ts:106-109 | deleting a user removes them with exactly their dogs, their appointments and those appointments' join rows; every other row keeps its value and services stay |
| `UserController.WithoutUserConsistent` | src/controllers/userController.ts:106-109 | that cascade keeps every remaining join row valid |
| `UserController.DeleteUser` | src/controllers/userController.ts:98-119 | someone else's profile is 403; a missing user is 404; neither writes; 204 applies the cascade |

## Left out

- Token verification and password hashing are not modelled. The caller's id is a parameter, and the login and registration handlers are not part of this model.
- Routing, the OpenAPI documents, server start-up and the store client are not modelled. They carry no logic of their own.
- The breed lookup is an HTTP call to a public breed list. It is the parameter `knownBreed`, and a failed call counts as an unknown breed.
- The e-mail and UUID formats are parameters (`isEmail`, `isUuid`).
- The service schema is not modelled. Its only constraint is a floating-point lower bound on the price, so prices are integers (cents) in the store.
- Response messages, logging, and the error JSON of the validating middleware are not modelled.
- Write handlers return only their status, except `UserController.UpdateUser`, which also returns the public view of the updated user. The other handlers' response bodies re-read the stored rows with the projections the read functions model.
- The `updatedAt` column is not modelled. `createdAt` is set at registration. Among the modelled handlers only the user update as written can write it (see "## Findings"), and the corrected update does not.
- Requests are atomic steps. Concurrent requests are not modelled, and neither are an appointment vanishing between the check and the transaction or the re-read after an update failing (src/controllers/appointmentController.ts:208, 222-225).
- A store that is unreachable, which answers 500 anywhere, is not modelled.
- Dates are instants in milliseconds. The conversion of date strings by the schema and by the store is not modelled, and neither is the store refusing a date string the schema accepted.
- The dog, service and user updates pass the whole body to the store. Body keys outside a handler's fields are not modelled, except the dog's `ownerId` and the user's `passwordHash` and `createdAt`. A key that names no column is refused with 500. A key that names a column, such as `id` on every table, is written. JSON `null` values and the 32-bit range of integer columns are not modelled either.
- The nested dog and service lists of an appointment are maps keyed by id. The order the store returns them in is unspecified and is not modelled.
- Sorting is by code points, the store's collation is not modelled, and rows with equal sort keys may come in any order. Lowercasing covers ASCII letters only.
- `DogController.PatchDog` also accepts bodies with missing fields, although the route's schema requires all four. That only widens the inputs it covers.
- A JavaScript string may hold a lone surrogate code unit, for example from a `\uD800` escape in the JSON. A Dafny character cannot, so such strings are not modelled.
- `POST /users` runs the registration schema before `UserController.CreateUser`. Only the handler, which answers 405 whatever the body, is modelled.
- The listing functions are ghost. Turning a table into an ordered list picks map entries by choice, and that is not compiled.

## Findings

| source | as written | input that shows it | evidently intended | confidence | as-written member | corrected member |
|---|---|---|---|---|---|---|
| src/schemas/zod/appointmentSchema.ts:10 | the minimum date `Date.now() + 60000` is evaluated once, when the module loads (line 21 repeats it for updates); the comment also says 10 minutes where the code uses 60000 ms (1 minute) | server loaded at time 0; one day later a body with date 120000 ms is accepted, although that date is a day in the past | the minimum is measured from the time of each request | high, not executed | `AppointmentSchema.StaleThresholdAcceptsPastDate` | `AppointmentSchema.AcceptedDateIsInFuture`, `AppointmentSchema.AcceptedUpdateDateIsInFuture` |
| src/controllers/userController.ts:73-75 | the whole body is the update's data, so `passwordHash` and `createdAt` keys, which the schema ignores, overwrite those columns | user u1 sends PUT /users/u1 with `{"passwordHash": "x"}`; the schema accepts it and the stored hash becomes "x", unhashed, with no check of the old password | an update changes only the profile fields the schema lists; the hash changes only through hashing a new password | medium, not executed | `UserController.AsWrittenUpdateOverwritesHash` | `UserController.PatchUser` (used by `UserController.UpdateUser`) |
| src/controllers/dogController.ts:110-113 | the whole body is the update's data, so an `ownerId` key, which the schema ignores, re-assigns the dog | user u1 owns dog d1, booked on u1's appointment a1; u1 sends PUT /dogs/d1 with valid fields and `ownerId: "u2"`; d1 becomes u2's while still booked on u1's appointment | an update changes only the dog's own fields; the owner stays the caller, as the owner gate implies | medium, not executed | `DogController.AsWrittenUpdateBreaksOwnership` | `DogController.PatchDog` (used by `DogController.UpdateDog`, which keeps the store consistent) |

=== FILE: appointment_controller.dfy ===
/**
 * The appointment handlers. An appointment belongs to the user who created
 * it; its dogs and services are join rows. Reads are functions of the
 * store's tables, writes are methods on the store.
 */
module AppointmentController {
  import opened Wrappers
  import opened Http
  import opened Ordering
  import opened Persistence
  import opened AppointmentSchema

  // ---------------------------------------------------------------------
  // The "every listed id exists" check
  // ---------------------------------------------------------------------

  predicate Distinct(ids: seq<Id>) {
    forall i, j :: 0 <= i < j < |ids| ==> ids[i] != ids[j]
  }

  /** The rows `findMany({ where: { id: { in: ids } } })` returns among `valid`: each at most once. */
  function Found(ids: seq<Id>, valid: set<Id>): set<Id> {
    set x | x in ids && x in valid
  }

  /** The handlers' test: as many rows found as ids listed. */
  predicate CountCheck(ids: seq<Id>, valid: set<Id>) {
    |Found(ids, valid)| == |ids|
  }

  function Elements(ids: seq<Id>): set<Id> {
    set x | x in ids
  }

  lemma ElementsCons(ids: seq<Id>)
    requires ids != []
    ensures Elements(ids) == Elements(ids[1..]) + {ids[0]}
  {
    assert ids == [ids[0]] + ids[1..];
  }

  /** A list with a distinct head is distinct exactly when its tail is. */
  lemma DistinctCons(ids: seq<Id>)
    requires ids != [] && ids[0] !in ids[1..]
    ensures Distinct(ids) <==> Distinct(ids[1..])
  {
    var rest := ids[1..];
    if Distinct(rest) {
      forall i, j | 0 <= i < j < |ids| ensures ids[i] != ids[j] {
        assert ids[j] == rest[j - 1];
        if i > 0 {
          assert ids[i] == rest[i - 1];
        }
      }
    } else {
      var i, j :| 0 <= i < j < |rest| && rest[i] == rest[j];
      assert ids[i + 1] == ids[j + 1];
    }
  }

  /** A list has at most as many distinct elements as entries, and as many exactly when none repeats. */
  lemma {:induction false} ElementsCard(ids: seq<Id>)
    ensures |Elements(ids)| <= |ids|
    ensures |Elements(ids)| == |ids| <==> Distinct(ids)
  {
    if ids == [] {
      assert Elements(ids) == {};
    } else {
      var rest := ids[1..];
      ElementsCard(rest);
      ElementsCons(ids);
      if ids[0] in rest {
        assert Elements(ids) == Elements(rest);
        var k :| 0 <= k < |rest| && rest[k] == ids[0];
        assert ids[k + 1] == ids[0];
      } else {
        assert ids[0] !in Elements(rest);
        assert |Elements(ids)| == |Elements(rest)| + 1;
        DistinctCons(ids);
      }
    }
  }

  /**
   * The count check passes exactly when every listed id is valid and no id
   * is listed twice: a repeated id is found only once, so a list that
   * repeats even a valid id is refused.
   */
  lemma CountCheckIff(ids: seq<Id>, valid: set<Id>)
    ensures CountCheck(ids, valid) <==> (forall i :: i in ids ==> i in valid) && Distinct(ids)
  {
    var s := Elements(ids);
    var f := Found(ids, valid);
    ElementsCard(ids);
    assert f <= s;
    if forall i :: i in ids ==> i in valid {
      assert f == s;
    } else {
      var x :| x in ids && x !in valid;
      assert x in s - f;
      assert s == f + (s - f);
      assert |s| == |f| + |s - f|;
    }
  }

  /** The dogs the caller may book: their own. */
  function OwnedDogIds(t: Tables, caller: Id): set<Id> {
    set d | d in t.dogs && t.dogs[d].ownerId == caller
  }

  /** The dog list passes the handlers' check: every dog is the caller's and none repeats. */
  function DogIdsValid(t: Tables, caller: Id, ids: seq<Id>): (ok: bool)
    ensures ok <==> (forall i :: i in ids ==> i in t.dogs && t.dogs[i].ownerId == caller) && Distinct(ids)
  {
    CountCheckIff(ids, OwnedDogIds(t, caller));
    CountCheck(ids, OwnedDogIds(t, caller))
  }

  /** The service list passes the handlers' check: every service exists and none repeats. */
  function ServiceIdsValid(t: Tables, ids: seq<Id>): (ok: bool)
    ensures ok <==> (forall i :: i in ids ==> i in t.services) && Distinct(ids)
  {
    CountCheckIff(ids, t.services.Keys);
    CountCheck(ids, t.services.Keys)
  }

  // ---------------------------------------------------------------------
  // Reads
  // ---------------------------------------------------------------------

  /** The user fields an appointment read includes. */
  datatype UserBrief = UserBrief(id: Id, nome: string, email: string, telefone: Option<string>)

  /** An appointment with its user, dogs and services; the nested lists are keyed by id. */
  datatype AppointmentDetail = AppointmentDetail(
    id: Id, appointment: Appointment, user: UserBrief,
    dogs: map<Id, Dog>, services: map<Id, Service>)

  function DetailOf(t: Tables, id: Id): AppointmentDetail
    requires Consistent(t) && id in t.appointments
  {
    var a := t.appointments[id];
    var u := t.users[a.userId];
    AppointmentDetail(id, a, UserBrief(a.userId, u.nome, u.email, u.telefone),
      map d | d in t.dogs && (id, d) in t.appointmentDogs :: t.dogs[d],
      map s | s in t.services && (id, s) in t.appointmentServices :: t.services[s])
  }

  /**
   * GET /appointments/:id. Someone else's appointment is reported exactly
   * like a missing one; an appointment shows exactly its linked dogs and
   * services, and every dog shown is the caller's.
   */
  function GetAppointmentById(t: Tables, id: Id, caller: Id): (r: (int, Option<AppointmentDetail>))
    requires Consistent(t)
    ensures r.0 == Ok || r.0 == NotFound
    ensures r.0 == Ok <==> id in t.appointments && t.appointments[id].userId == caller
    ensures r.0 == Ok <==> r.1.Some?
    ensures r.1.Some? ==>
              && r.1.value.id == id && r.1.value.appointment == t.appointments[id]
              && r.1.value.user.id == caller && caller in t.users
              && r.1.value.user == UserBrief(caller, t.users[caller].nome, t.users[caller].email, t.users[caller].telefone)
              && r.1.value.dogs.Keys == LinksOf(t.appointmentDogs, id)
              && r.1.value.services.Keys == LinksOf(t.appointmentServices, id)
              && (forall d :: d in r.1.value.dogs ==>
                    d in t.dogs && r.1.value.dogs[d] == t.dogs[d] && t.dogs[d].ownerId == caller)
              && (forall s :: s in r.1.value.services ==> s in t.services && r.1.value.services[s] == t.services[s])
  {
    if id in t.appointments && t.appointments[id].userId == caller then
      var v := DetailOf(t, id);
      assert forall d :: d in LinksOf(t.appointmentDogs, id) ==> (id, d) in t.appointmentDogs;
      assert forall s :: s in LinksOf(t.appointmentServices, id) ==> (id, s) in t.appointmentServices;
      (Ok, Some(v))
    else (NotFound, None)
  }

  /** What GET /appointments shows of a dog and of a service. */
  datatype DogBrief = DogBrief(nome: string, raca: string)
  datatype ServiceBrief = ServiceBrief(name: string, price: int)

  datatype AppointmentSummary = AppointmentSummary(
    appointment: Appointment, dogs: map<Id, DogBrief>, services: map<Id, ServiceBrief>)

  function SummaryOf(t: Tables, id: Id): AppointmentSummary
    requires id in t.appointments
  {
    AppointmentSummary(t.appointments[id],
      map d | d in t.dogs && (id, d) in t.appointmentDogs :: DogBrief(t.dogs[d].nome, t.dogs[d].raca),
      map s | s in t.services && (id, s) in t.appointmentServices :: ServiceBrief(t.services[s].name, t.services[s].price))
  }

  function AppointmentsOf(t: Tables, caller: Id): map<Id, AppointmentSummary> {
    map a | a in t.appointments && t.appointments[a].userId == caller :: SummaryOf(t, a)
  }

  /** `orderBy: { date: 'asc' }`. */
  predicate ByDate(p: (Id, AppointmentSummary), q: (Id, AppointmentSummary)) {
    p.1.appointment.date <= q.1.appointment.date
  }

  /** GET /appointments: exactly the caller's appointments, each once, earliest first. */
  ghost function GetAllAppointments(t: Tables, caller: Id): (r: seq<(Id, AppointmentSummary)>)
    ensures forall i :: 0 < i < |r| ==> r[i - 1].1.appointment.date <= r[i].1.appointment.date
    ensures forall p :: p in r <==>
              p.0 in t.appointments && t.appointments[p.0].userId == caller && p.1 == SummaryOf(t, p.0)
    ensures |r| == |AppointmentsOf(t, caller)|
  {
    var r := SortedEntries(AppointmentsOf(t, caller), ByDate);
    assert Sorted(r, ByDate);
    r
  }

  // ---------------------------------------------------------------------
  // Writes
  // ---------------------------------------------------------------------

  /** The tables after creating appointment `newId` for `caller` from a body that passed every check. */
  function WithNewAppointment(t: Tables, newId: Id, caller: Id, date: int, dogIds: seq<Id>, serviceIds: seq<Id>): Tables {
    t.(appointments := t.appointments[newId := Appointment(date, AGENDADO, caller)],
       appointmentDogs := t.appointmentDogs + LinkAll(newId, dogIds),
       appointmentServices := t.appointmentServices + LinkAll(newId, serviceIds))
  }

  /**
   * POST /appointments. The store assigns the fresh id `newId`; a new
   * appointment starts AGENDADO. The dog list is checked (400) before the
   * service list (400); a missing list, a missing date or a caller who no
   * longer exists makes the store fail (500).
   */
  method CreateAppointment(db: Store, caller: Id, b: AppointmentBody, newId: Id) returns (status: int)
    requires db.Valid()
    requires newId !in db.appointments
    modifies db
    ensures db.Valid()
    ensures status == Created || status == BadRequest || status == InternalError
    ensures status == BadRequest <==>
              || (b.dogIds.Some? && !DogIdsValid(old(db.Snapshot()), caller, b.dogIds.value))
              || (b.dogIds.Some? && b.serviceIds.Some? && !ServiceIdsValid(old(db.Snapshot()), b.serviceIds.value))
    ensures status == Created <==>
              && b.dogIds.Some? && DogIdsValid(old(db.Snapshot()), caller, b.dogIds.value)
              && b.serviceIds.Some? && ServiceIdsValid(old(db.Snapshot()), b.serviceIds.value)
              && b.date.Some? && caller in old(db.users)
    ensures status == Created ==>
              && db.Snapshot() == WithNewAppointment(old(db.Snapshot()), newId, caller,
                                                     b.date.value, b.dogIds.value, b.serviceIds.value)
              && LinksOf(db.appointmentDogs, newId) == set d | d in b.dogIds.value
              && LinksOf(db.appointmentServices, newId) == set s | s in b.serviceIds.value
    ensures status != Created ==> db.Snapshot() == old(db.Snapshot())
  {
    if b.dogIds.None? {
      return InternalError;
    }
    if !DogIdsValid(db.Snapshot(), caller, b.dogIds.value) {
      return BadRequest;
    }
    if b.serviceIds.None? {
      return InternalError;
    }
    if !ServiceIdsValid(db.Snapshot(), b.serviceIds.value) {
      return BadRequest;
    }
    if b.date.None? || caller !in db.users {
      return InternalError;
    }
    var t := db.Snapshot();
    assert LinksOf(t.appointmentDogs, newId) == {} && LinksOf(t.appointmentServices, newId) == {};
    db.Commit(WithNewAppointment(t, newId, caller, b.date.value, b.dogIds.value, b.serviceIds.value));
    assert LinksOf(db.appointmentDogs, newId) == LinksOf(t.appointmentDogs, newId) + LinksOf(LinkAll(newId, b.dogIds.value), newId);
    assert LinksOf(db.appointmentServices, newId) == LinksOf(t.appointmentServices, newId) + LinksOf(LinkAll(newId, b.serviceIds.value), newId);
    status := Created;
  }

  /** The batch PUT /appointments/:id sends: the row update, then each supplied list's delete-and-insert. */
  function UpdateBatch(id: Id, b: AppointmentBody): seq<Op> {
    [UpdateAppointmentRow(id, b.date, b.status)] + DogOps(id, b) + ServiceOps(id, b)
  }

  function DogOps(id: Id, b: AppointmentBody): seq<Op> {
    if b.dogIds.Some? then [DeleteDogLinks(id), CreateDogLinks(id, b.dogIds.value)] else []
  }

  function ServiceOps(id: Id, b: AppointmentBody): seq<Op> {
    if b.serviceIds.Some? then [DeleteServiceLinks(id), CreateServiceLinks(id, b.serviceIds.value)] else []
  }

  /**
   * The net effect of an update: the supplied date and status replace the
   * old ones, a supplied list replaces the appointment's links, an omitted
   * one leaves them; nothing else changes. A status outside the enum makes
   * the whole update fail.
   */
  function AppointmentUpdate(t: Tables, id: Id, b: AppointmentBody): (r: Option<Tables>)
    requires id in t.appointments
    ensures r.Some? <==> (b.status.Some? ==> ParseStatus(b.status.value).Some?)
    ensures r.Some? ==>
              var n := r.value;
              && n.users == t.users && n.dogs == t.dogs && n.services == t.services
              && n.appointments.Keys == t.appointments.Keys
              && (forall a :: a in t.appointments && a != id ==> n.appointments[a] == t.appointments[a])
              && n.appointments[id].userId == t.appointments[id].userId
              && n.appointments[id].date == (if b.date.Some? then b.date.value else t.appointments[id].date)
              && (b.status.Some? ==> n.appointments[id].status == ParseStatus(b.status.value).value)
              && (b.status.None? ==> n.appointments[id].status == t.appointments[id].status)
              && LinksOf(n.appointmentDogs, id) ==
                   (if b.dogIds.Some? then set d | d in b.dogIds.value else LinksOf(t.appointmentDogs, id))
              && LinksOf(n.appointmentServices, id) ==
                   (if b.serviceIds.Some? then set s | s in b.serviceIds.value else LinksOf(t.appointmentServices, id))
              && (forall a :: a != id ==> LinksOf(n.appointmentDogs, a) == LinksOf(t.appointmentDogs, a))
              && (forall a :: a != id ==> LinksOf(n.appointmentServices, a) == LinksOf(t.appointmentServices, a))
  {
    if b.status.Some? && ParseStatus(b.status.value).None? then None
    else
      var a := t.appointments[id];
      var s := if b.status.Some? then ParseStatus(b.status.value).value else a.status;
      Some(t.(appointments := t.appointments[id := a.(date := b.date.GetOr(a.date), status := s)],
              appointmentDogs :=
                if b.dogIds.Some? then ReplaceLinks(t.appointmentDogs, id, b.dogIds.value) else t.appointmentDogs,
              appointmentServices :=
                if b.serviceIds.Some? then ReplaceLinks(t.appointmentServices, id, b.serviceIds.value)
                else t.appointmentServices))
  }

  /** Behind updateAppointmentSchema the update's transaction never fails. */
  lemma AcceptedUpdateCommits(t: Tables, id: Id, b: AppointmentBody, since: int, isUuid: string -> bool)
    requires id in t.appointments
    requires UpdateAppointmentSchema(b, since, isUuid)
    ensures AppointmentUpdate(t, id, b).Some?
  {
  }

  /** Running a batch of two parts is running the first, then the second on its result. */
  lemma {:induction false} ApplyAllAppend(t: Tables, xs: seq<Op>, ys: seq<Op>)
    ensures ApplyAll(t, xs + ys) == (match ApplyAll(t, xs) case None => None case Some(t1) => ApplyAll(t1, ys))
    decreases |xs|
  {
    if xs == [] {
      assert xs + ys == ys;
    } else {
      assert (xs + ys)[0] == xs[0] && (xs + ys)[1..] == xs[1..] + ys;
      match ApplyOp(t, xs[0])
      case None =>
      case Some(t1) => ApplyAllAppend(t1, xs[1..], ys);
    }
  }

  lemma ApplyPair(t: Tables, x: Op, y: Op)
    ensures ApplyAll(t, [x, y]) == (match ApplyOp(t, x) case None => None case Some(t1) => ApplyOp(t1, y))
  {
    assert [x, y][1..] == [y];
    match ApplyOp(t, x)
    case None =>
    case Some(t1) =>
      assert ApplyAll(t1, [y]) == ApplyOp(t1, y) by {
        assert [y][1..] == [];
      }
  }

  /** The dog part of the batch replaces the appointment's dog links, or does nothing when no list was sent. */
  lemma DogOpsEffect(t: Tables, id: Id, b: AppointmentBody)
    requires id in t.appointments
    requires b.dogIds.Some? ==> forall d :: d in b.dogIds.value ==> d in t.dogs
    ensures ApplyAll(t, DogOps(id, b)) ==
              Some(if b.dogIds.Some? then t.(appointmentDogs := ReplaceLinks(t.appointmentDogs, id, b.dogIds.value))
                   else t)
  {
    if b.dogIds.Some? {
      ApplyPair(t, DeleteDogLinks(id), CreateDogLinks(id, b.dogIds.value));
    }
  }

  /** The service part of the batch, likewise. */
  lemma ServiceOpsEffect(t: Tables, id: Id, b: AppointmentBody)
    requires id in t.appointments
    requires b.serviceIds.Some? ==> forall s :: s in b.serviceIds.value ==> s in t.services
    ensures ApplyAll(t, ServiceOps(id, b)) ==
              Some(if b.serviceIds.Some?
                   then t.(appointmentServices := ReplaceLinks(t.appointmentServices, id, b.serviceIds.value))
                   else t)
  {
    if b.serviceIds.Some? {
      ApplyPair(t, DeleteServiceLinks(id), CreateServiceLinks(id, b.serviceIds.value));
    }
  }

  /**
   * The batch the handler builds, once its lists passed their checks, has
   * exactly the net effect stated by `AppointmentUpdate`.
   */
  lemma UpdateBatchEffect(t: Tables, id: Id, b: AppointmentBody)
    requires id in t.appointments
    requires b.dogIds.Some? ==> forall d :: d in b.dogIds.value ==> d in t.dogs
    requires b.serviceIds.Some? ==> forall s :: s in b.serviceIds.value ==> s in t.services
    ensures ApplyAll(t, UpdateBatch(id, b)) == AppointmentUpdate(t, id, b)
  {
    var row := [UpdateAppointmentRow(id, b.date, b.status)];
    ApplyAllAppend(t, row + DogOps(id, b), ServiceOps(id, b));
    ApplyAllAppend(t, row, DogOps(id, b));
    assert ApplyAll(t, row) == ApplyOp(t, row[0]) by {
      assert row[1..] == [];
    }
    match ApplyOp(t, row[0])
    case None =>
    case Some(t1) =>
      DogOpsEffect(t1, id, b);
      var t2 := ApplyAll(t1, DogOps(id, b)).value;
      ServiceOpsEffect(t2, id, b);
  }

  /**
   * An update keeps the store consistent: the appointment keeps its user and
   * its new dogs are that user's.
   */
  lemma AppointmentUpdateConsistent(t: Tables, id: Id, caller: Id, b: AppointmentBody)
    requires Consistent(t) && id in t.appointments && t.appointments[id].userId == caller
    requires b.dogIds.Some? ==> DogIdsValid(t, caller, b.dogIds.value)
    requires b.serviceIds.Some? ==> ServiceIdsValid(t, b.serviceIds.value)
    requires AppointmentUpdate(t, id, b).Some?
    ensures Consistent(AppointmentUpdate(t, id, b).value)
  {
    var n := AppointmentUpdate(t, id, b).value;
    forall l | l in n.appointmentDogs
      ensures l.0 in n.appointments && l.1 in n.dogs && n.dogs[l.1].ownerId == n.appointments[l.0].userId
    {
      assert l.1 in LinksOf(n.appointmentDogs, l.0);
      if l.0 != id {
        assert l.1 in LinksOf(t.appointmentDogs, l.0);
        var m :| m in t.appointmentDogs && m.0 == l.0 && m.1 == l.1;
      } else if b.dogIds.None? {
        assert l.1 in LinksOf(t.appointmentDogs, id);
        var m :| m in t.appointmentDogs && m.0 == l.0 && m.1 == l.1;
      }
    }
    forall l | l in n.appointmentServices
      ensures l.0 in n.appointments && l.1 in n.services
    {
      assert l.1 in LinksOf(n.appointmentServices, l.0);
      if l.0 != id || b.serviceIds.None? {
        assert l.1 in LinksOf(t.appointmentServices, l.0);
        var m :| m in t.appointmentServices && m.0 == l.0 && m.1 == l.1;
      }
    }
  }

  /**
   * PUT /appointments/:id. A missing appointment and someone else's are both
   * 404; the dog list is checked (400) before the service list (400); the
   * date, status and links are then written in one transaction, which fails
   * as a whole (500) on a status outside the enum.
   */
  method UpdateAppointment(db: Store, id: Id, caller: Id, b: AppointmentBody) returns (status: int)
    requires db.Valid()
    modifies db
    ensures db.Valid()
    ensures status == Ok || status == NotFound || status == BadRequest || status == InternalError
    ensures status == NotFound <==> !(id in old(db.appointments) && old(db.appointments[id]).userId == caller)
    ensures status == BadRequest <==>
              && id in old(db.appointments) && old(db.appointments[id]).userId == caller
              && (|| (b.dogIds.Some? && !DogIdsValid(old(db.Snapshot()), caller, b.dogIds.value))
                  || (b.serviceIds.Some? && !ServiceIdsValid(old(db.Snapshot()), b.serviceIds.value)))
    ensures status == Ok ==>
              && AppointmentUpdate(old(db.Snapshot()), id, b).Some?
              && db.Snapshot() == AppointmentUpdate(old(db.Snapshot()), id, b).value
    ensures status == InternalError <==>
              && id in old(db.appointments) && old(db.appointments[id]).userId == caller
              && (b.dogIds.Some? ==> DogIdsValid(old(db.Snapshot()), caller, b.dogIds.value))
              && (b.serviceIds.Some? ==> ServiceIdsValid(old(db.Snapshot()), b.serviceIds.value))
              && b.status.Some? && ParseStatus(b.status.value).None?
    ensures status != Ok ==> db.Snapshot() == old(db.Snapshot())
  {
    if id !in db.appointments || db.appointments[id].userId != caller {
      return NotFound;
    }
    var ops := [UpdateAppointmentRow(id, b.date, b.status)];
    if b.dogIds.Some? {
      if !DogIdsValid(db.Snapshot(), caller, b.dogIds.value) {
        return BadRequest;
      }
      ops := ops + [DeleteDogLinks(id), CreateDogLinks(id, b.dogIds.value)];
    }
    if b.serviceIds.Some? {
      if !ServiceIdsValid(db.Snapshot(), b.serviceIds.value) {
        return BadRequest;
      }
      ops := ops + [DeleteServiceLinks(id), CreateServiceLinks(id, b.serviceIds.value)];
    }
    assert ops == UpdateBatch(id, b);
    UpdateBatchEffect(db.Snapshot(), id, b);
    var next := ApplyAll(db.Snapshot(), ops);
    if next.None? {
      return InternalError;
    }
    AppointmentUpdateConsistent(db.Snapshot(), id, caller, b);
    db.Commit(next.value);
    status := Ok;
  }

  /**
   * DELETE /appointments/:id: 404 for a missing appointment and for someone
   * else's; otherwise the appointment goes, and its join rows with it.
   */
  method DeleteAppointment(db: Store, id: Id, caller: Id) returns (status: int)
    requires db.Valid()
    modifies db
    ensures db.Valid()
    ensures status == NoContent || status == NotFound
    ensures status == NotFound <==> !(id in old(db.appointments) && old(db.appointments[id]).userId == caller)
    ensures status == NoContent ==>
              db.Snapshot() == old(db.Snapshot()).(appointments := old(db.appointments) - {id},
                                                   appointmentDogs := Unlink(old(db.appointmentDogs), id),
                                                   appointmentServices := Unlink(old(db.appointmentServices), id))
    ensures status == NoContent ==>
              LinksOf(db.appointmentDogs, id) == {} && LinksOf(db.appointmentServices, id) == {}
    ensures status == NotFound ==> db.Snapshot() == old(db.Snapshot())
  {
    if id !in db.appointments || db.appointments[id].userId != caller {
      return NotFound;
    }
    db.appointments := db.appointments - {id};
    db.appointmentDogs := Unlink(db.appointmentDogs, id);
    db.appointmentServices := Unlink(db.appointmentServices, id);
    status := NoContent;
  }
}

=== FILE: appointment_schema.dfy ===
/**
 * The request schemas of POST and PUT /appointments, as accept/reject
 * predicates over the body as sent. The validating middleware discards what
 * the schema parses, so the controllers later see this same body.
 */
module AppointmentSchema {
  import opened Wrappers
  import Persistence

  /** The JSON body; `date` is the instant it denotes, in milliseconds since the epoch. */
  datatype AppointmentBody = AppointmentBody(
    date: Option<int>,
    status: Option<string>,
    dogIds: Option<seq<string>>,
    serviceIds: Option<seq<string>>)

  /** How far in the future an appointment date must lie: 60000 ms. */
  const FutureBufferMs: int := 60000

  /** `z.array(z.string().uuid()).min(1)`; the UUID format itself is a parameter. */
  predicate IdList(ids: seq<string>, isUuid: string -> bool) {
    |ids| >= 1 && forall i :: 0 <= i < |ids| ==> isUuid(ids[i])
  }

  /**
   * createAppointmentSchema. The minimum date is `since + 60000`, where
   * `since` is the time the threshold is taken at: as written, `Date.now()`
   * is evaluated once, when the module is loaded, so `since` is the load
   * time and the request's own time plays no part; evidently intended is the
   * time of the request. `status` is not a key of this schema and is ignored.
   */
  predicate CreateAppointmentSchema(b: AppointmentBody, since: int, isUuid: string -> bool) {
    && b.date.Some? && b.date.value >= since + FutureBufferMs
    && b.dogIds.Some? && IdList(b.dogIds.value, isUuid)
    && b.serviceIds.Some? && IdList(b.serviceIds.value, isUuid)
  }

  /**
   * updateAppointmentSchema: every key optional, each present one checked as
   * on creation, with the same `since`.
   */
  predicate UpdateAppointmentSchema(b: AppointmentBody, since: int, isUuid: string -> bool) {
    && (b.date.Some? ==> b.date.value >= since + FutureBufferMs)
    && (b.status.Some? ==> Persistence.ParseStatus(b.status.value).Some?)
    && (b.dogIds.Some? ==> IdList(b.dogIds.value, isUuid))
    && (b.serviceIds.Some? ==> IdList(b.serviceIds.value, isUuid))
  }

  /** `{}` is a valid update, and so is any status of the enum on its own. */
  lemma UpdateAcceptsStatusOnly(since: int, isUuid: string -> bool, status: Option<string>)
    requires status.Some? ==> status.value in {"AGENDADO", "CONCLUIDO", "CANCELADO"}
    ensures UpdateAppointmentSchema(AppointmentBody(None, status, None, None), since, isUuid)
  {
  }

  /** A present status outside AGENDADO/CONCLUIDO/CANCELADO, or an empty id list, is refused. */
  lemma UpdateRejectsBadFields(b: AppointmentBody, since: int, isUuid: string -> bool)
    requires || (b.status.Some? && b.status.value !in {"AGENDADO", "CONCLUIDO", "CANCELADO"})
             || b.dogIds == Some([]) || b.serviceIds == Some([])
    ensures !UpdateAppointmentSchema(b, since, isUuid)
  {
  }

  /** Whatever the create schema accepts, the update schema accepts too. */
  lemma CreateImpliesUpdate(b: AppointmentBody, since: int, isUuid: string -> bool)
    requires CreateAppointmentSchema(b, since, isUuid)
    ensures UpdateAppointmentSchema(b.(status := None), since, isUuid)
  {
  }

  /**
   * The threshold is stale: a server loaded at time 0 still accepts, in a
   * request a day later, a date two minutes after it loaded, which is long
   * past; with the threshold taken at the request, the same body is
   * refused. The update schema behaves the same way.
   */
  lemma StaleThresholdAcceptsPastDate()
    ensures var day := 86_400_000;
            var b := AppointmentBody(Some(120_000), None, Some(["d"]), Some(["s"]));
            && b.date.value < day
            && CreateAppointmentSchema(b, 0, s => true)
            && !CreateAppointmentSchema(b, day, s => true)
            && UpdateAppointmentSchema(b, 0, s => true)
            && !UpdateAppointmentSchema(b, day, s => true)
  {
  }

  /** With the threshold taken at the request (`since` = `requestTime`), an accepted date lies at least the buffer after the request. */
  lemma AcceptedDateIsInFuture(b: AppointmentBody, requestTime: int, isUuid: string -> bool)
    requires CreateAppointmentSchema(b, requestTime, isUuid)
    ensures b.date.Some? && b.date.value >= requestTime + FutureBufferMs > requestTime
  {
  }

  /** The same for an update: a supplied date lies at least the buffer after the request. */
  lemma AcceptedUpdateDateIsInFuture(b: AppointmentBody, requestTime: int, isUuid: string -> bool)
    requires UpdateAppointmentSchema(b, requestTime, isUuid)
    ensures b.date.Some? ==> b.date.value >= requestTime + FutureBufferMs > requestTime
  {
  }
}

=== FILE: dog_controller.dfy ===
/**
 * The dog handlers. Reads are functions of the store's tables; writes are
 * methods on the store. Every write is reached only after the dog schema
 * accepted the body, but works on the body as sent.
 */
module DogController {
  import opened Wrappers
  import opened Http
  import opened Text
  import opened Ordering
  import opened Persistence
  import opened DogSchema

  /** The owner fields a dog read may include: id, nome, email, telefone. */
  datatype OwnerContact = OwnerContact(id: Id, nome: string, email: string, telefone: Option<string>)

  /** A dog as returned by GET /dogs/:id: its row, plus its owner when included. */
  datatype DogView = DogView(id: Id, dog: Dog, owner: Option<OwnerContact>)

  function ContactOf(id: Id, u: User): OwnerContact {
    OwnerContact(id, u.nome, u.email, u.telefone)
  }

  /**
   * The row `dog.create` builds from the body's four fields and the caller's
   * id; `None` when the store refuses the data (a missing field, an age that
   * is not a whole number, a porte outside the enum).
   */
  function NewDog(b: DogBody, ownerId: Id): (r: Option<Dog>)
    ensures r.None? <==> || b.nome.None? || b.idade.None? || b.raca.None? || b.porte.None?
                         || !IsInteger(b.idade.value) || ParsePorte(b.porte.value).None?
    ensures r.Some? ==>
              && r.value.nome == b.nome.value && r.value.idade as real == b.idade.value
              && r.value.raca == b.raca.value && ParsePorte(b.porte.value) == Some(r.value.porte)
              && r.value.ownerId == ownerId
  {
    if && b.nome.Some? && b.idade.Some? && IsInteger(b.idade.value)
       && b.raca.Some? && b.porte.Some? && ParsePorte(b.porte.value).Some?
    then Some(Dog(b.nome.value, b.idade.value.Floor, b.raca.value, ParsePorte(b.porte.value).value, ownerId))
    else None
  }

  /**
   * A body the create schema accepts is always storable, and it is stored as
   * sent: the breed keeps the client's case although the schema checked it
   * lowercased, and the owner is the caller.
   */
  lemma AcceptedDogIsStoredAsSent(b: DogBody, ownerId: Id, knownBreed: string -> bool)
    requires CreateDogSchemaAccepts(b, knownBreed)
    ensures NewDog(b, ownerId).Some?
    ensures var d := NewDog(b, ownerId).value;
            && d.nome == b.nome.value && |d.nome| >= 1
            && d.raca == b.raca.value && knownBreed(Lower(d.raca))
            && d.idade as real == b.idade.value && 1 <= d.idade <= 20
            && ParsePorte(b.porte.value) == Some(d.porte)
            && d.ownerId == ownerId
  {
  }

  /** POST /dogs. The store assigns the fresh id `newId`. */
  method CreateDog(db: Store, caller: Id, b: DogBody, newId: Id) returns (status: int)
    requires db.Valid()
    requires newId !in db.dogs
    modifies db
    ensures db.Valid()
    ensures status == Created || status == InternalError
    ensures status == Created <==> NewDog(b, caller).Some? && caller in old(db.users)
    ensures status == Created ==>
              && db.Snapshot() == old(db.Snapshot()).(dogs := old(db.dogs)[newId := NewDog(b, caller).value])
              && db.dogs[newId].ownerId == caller
    ensures status != Created ==> db.Snapshot() == old(db.Snapshot())
  {
    var dog := NewDog(b, caller);
    if dog.None? || caller !in db.users {
      // the store rejects the data, or the owner's foreign key dangles
      return InternalError;
    }
    db.dogs := db.dogs[newId := dog.value];
    status := Created;
  }

  /**
   * GET /dogs/:id?includeOwner=... Any caller may read any dog; the owner's
   * contact is fetched when `includeOwner` is the text "true", and kept only
   * when the caller is that owner.
   */
  function GetDogById(t: Tables, id: Id, caller: Id, includeOwner: Option<string>): (r: (int, Option<DogView>))
    requires Consistent(t)
    ensures r.0 == NotFound <==> id !in t.dogs
    ensures r.0 == NotFound ==> r.1 == None
    ensures r.0 != NotFound ==> r.0 == Ok && r.1.Some? && r.1.value.id == id && r.1.value.dog == t.dogs[id]
    ensures r.1.Some? ==>
              (r.1.value.owner.Some? <==> includeOwner == Some("true") && t.dogs[id].ownerId == caller)
    ensures r.1.Some? && r.1.value.owner.Some? ==>
              caller in t.users && r.1.value.owner.value == ContactOf(caller, t.users[caller])
  {
    var wantOwner := includeOwner == Some("true");
    if id !in t.dogs then (NotFound, None)
    else
      var d := t.dogs[id];
      var fetched := if wantOwner then Some(ContactOf(d.ownerId, t.users[d.ownerId])) else None;
      if !wantOwner || d.ownerId == caller then (Ok, Some(DogView(id, d, fetched)))
      else (Ok, Some(DogView(id, d, None)))
  }

  function DogsOf(dogs: map<Id, Dog>, owner: Id): map<Id, Dog> {
    map d | d in dogs && dogs[d].ownerId == owner :: dogs[d]
  }

  /** `orderBy: { nome: 'asc' }`. */
  predicate ByNome(p: (Id, Dog), q: (Id, Dog)) {
    LexLeq(p.1.nome, q.1.nome)
  }

  lemma ByNomeTotal()
    ensures Total(ByNome)
  {
    forall p: (Id, Dog), q: (Id, Dog) ensures ByNome(p, q) || ByNome(q, p) {
      LexLeqTotal(p.1.nome, q.1.nome);
    }
  }

  /** GET /dogs: exactly the caller's dogs, each once, by name ascending. */
  ghost function GetAllDogs(t: Tables, caller: Id): (r: seq<(Id, Dog)>)
    ensures Sorted(r, ByNome)
    ensures forall i :: 0 < i < |r| ==> LexLeq(r[i - 1].1.nome, r[i].1.nome)
    ensures forall p :: p in r <==> p.0 in t.dogs && t.dogs[p.0] == p.1 && p.1.ownerId == caller
    ensures |r| == |DogsOf(t.dogs, caller)|
  {
    ByNomeTotal();
    SortedEntries(DogsOf(t.dogs, caller), ByNome)
  }

  /**
   * The row `dog.update` writes for a body, taking only the dog's own
   * fields: an absent field keeps its value, an ill-typed one makes the
   * store refuse the update (`None`).
   */
  function PatchDog(d: Dog, b: DogBody): (r: Option<Dog>)
    ensures r.Some? ==> r.value.ownerId == d.ownerId
    ensures r.Some? <==> (b.idade.Some? ==> IsInteger(b.idade.value))
                         && (b.porte.Some? ==> ParsePorte(b.porte.value).Some?)
    ensures r.Some? ==> (b.nome.Some? ==> r.value.nome == b.nome.value) && (b.nome.None? ==> r.value.nome == d.nome)
    ensures r.Some? ==> (b.idade.Some? ==> r.value.idade as real == b.idade.value) && (b.idade.None? ==> r.value.idade == d.idade)
    ensures r.Some? ==> (b.raca.Some? ==> r.value.raca == b.raca.value) && (b.raca.None? ==> r.value.raca == d.raca)
    ensures r.Some? ==> (b.porte.Some? ==> ParsePorte(b.porte.value) == Some(r.value.porte)) && (b.porte.None? ==> r.value.porte == d.porte)
  {
    if b.idade.Some? && !IsInteger(b.idade.value) then None
    else if b.porte.Some? && ParsePorte(b.porte.value).None? then None
    else
      Some(Dog(
        b.nome.GetOr(d.nome),
        if b.idade.Some? then b.idade.value.Floor else d.idade,
        b.raca.GetOr(d.raca),
        if b.porte.Some? then ParsePorte(b.porte.value).value else d.porte,
        d.ownerId))
  }

  /**
   * Behind the schema PUT /dogs uses, the store never refuses the update,
   * and every field of the body is written.
   */
  lemma AcceptedUpdateIsStored(d: Dog, b: DogBody, knownBreed: string -> bool)
    requires DogSchemaAccepts(b, knownBreed)
    ensures PatchDog(d, b).Some?
    ensures var p := PatchDog(d, b).value;
            && p.nome == b.nome.value && p.raca == b.raca.value
            && p.idade as real == b.idade.value && Some(p.porte) == ParsePorte(b.porte.value)
  {
  }

  /**
   * The row `dog.update` writes as the handler is written: it passes the
   * whole body as the update's data, so an `ownerId` key in the body, which
   * the schema does not look at, re-assigns the dog.
   */
  function PatchDogAsWritten(d: Dog, b: DogBody): (r: Option<Dog>)
    ensures r.Some? ==> r.value.ownerId == b.ownerId.GetOr(d.ownerId)
  {
    match PatchDog(d, b)
    case None => None
    case Some(p) => Some(p.(ownerId := b.ownerId.GetOr(d.ownerId)))
  }

  /**
   * A body the schema accepts, sent by the owner of a dog that is booked on
   * one of their appointments, hands the dog to another user: the booked dog
   * then no longer belongs to the appointment's user.
   */
  lemma AsWrittenUpdateBreaksOwnership()
    ensures var u := User("Ana", "a@x", "00000000000", 30, None, "h", 0);
            var t := Tables(
              map["u1" := u, "u2" := u.(email := "b@x", cpf := "11111111111")],
              map["d1" := Dog("Rex", 3, "husky", MEDIO, "u1")],
              map["s1" := Service("Banho", 5000)],
              map["a1" := Appointment(1000, AGENDADO, "u1")],
              {("a1", "d1")}, {("a1", "s1")});
            var b := DogBody(Some("Rex"), Some(3.0), Some("Husky"), Some("MEDIO"), Some("u2"));
            && Consistent(t)
            && DogSchemaAccepts(b, r => r == "husky")
            && PatchDogAsWritten(t.dogs["d1"], b).Some?
            && "u2" in t.users
            && !Consistent(t.(dogs := t.dogs["d1" := PatchDogAsWritten(t.dogs["d1"], b).value]))
  {
    var u := User("Ana", "a@x", "00000000000", 30, None, "h", 0);
    var u2 := u.(email := "b@x", cpf := "11111111111");
    var users := map["u1" := u, "u2" := u2];
    assert users["u1"].email != users["u2"].email && users["u1"].cpf != users["u2"].cpf;
    assert Lower("Husky") == "husky";
    var t := Tables(users, map["d1" := Dog("Rex", 3, "husky", MEDIO, "u1")],
                    map["s1" := Service("Banho", 5000)],
                    map["a1" := Appointment(1000, AGENDADO, "u1")],
                    {("a1", "d1")}, {("a1", "s1")});
    assert UniqueUserKeys(t.users);
    assert Consistent(t);
    var b := DogBody(Some("Rex"), Some(3.0), Some("Husky"), Some("MEDIO"), Some("u2"));
    assert ParsePorte("MEDIO") == Some(MEDIO) && IsInteger(3.0);
    assert DogSchemaAccepts(b, r => r == "husky");
    assert PatchDog(t.dogs["d1"], b).Some?;
    var d' := PatchDogAsWritten(t.dogs["d1"], b).value;
    assert d'.ownerId == "u2";
    var t' := t.(dogs := t.dogs["d1" := d']);
    assert ("a1", "d1") in t'.appointmentDogs && t'.dogs["d1"].ownerId != t'.appointments["a1"].userId;
  }

  /** PUT /dogs/:id: a missing dog is 404 before a foreign dog is 403; neither changes anything. */
  method UpdateDog(db: Store, id: Id, caller: Id, b: DogBody) returns (status: int)
    requires db.Valid()
    modifies db
    ensures db.Valid()
    ensures status == NotFound <==> id !in old(db.dogs)
    ensures status == Forbidden <==> id in old(db.dogs) && old(db.dogs[id]).ownerId != caller
    ensures status == InternalError <==>
              id in old(db.dogs) && old(db.dogs[id]).ownerId == caller && PatchDog(old(db.dogs[id]), b).None?
    ensures status == Ok || status == NotFound || status == Forbidden || status == InternalError
    ensures status == Ok ==>
              db.Snapshot() == old(db.Snapshot()).(dogs := old(db.dogs)[id := PatchDog(old(db.dogs[id]), b).value])
    ensures status != Ok ==> db.Snapshot() == old(db.Snapshot())
  {
    if id !in db.dogs {
      return NotFound;
    }
    if db.dogs[id].ownerId != caller {
      return Forbidden;
    }
    var updated := PatchDog(db.dogs[id], b);
    if updated.None? {
      return InternalError;
    }
    db.dogs := db.dogs[id := updated.value];
    status := Ok;
  }

  /**
   * DELETE /dogs/:id: 404, then 403, as for updates. A dog still booked on an
   * appointment is protected by the join rows' foreign key; the handler does
   * not map that refusal, so it answers 500.
   */
  method DeleteDog(db: Store, id: Id, caller: Id) returns (status: int)
    requires db.Valid()
    modifies db
    ensures db.Valid()
    ensures status == NotFound <==> id !in old(db.dogs)
    ensures status == Forbidden <==> id in old(db.dogs) && old(db.dogs[id]).ownerId != caller
    ensures status == InternalError <==>
              id in old(db.dogs) && old(db.dogs[id]).ownerId == caller
              && exists l :: l in old(db.appointmentDogs) && l.1 == id
    ensures status == NoContent || status == NotFound || status == Forbidden || status == InternalError
    ensures status == NoContent ==> db.Snapshot() == old(db.Snapshot()).(dogs := old(db.dogs) - {id})
    ensures status != NoContent ==> db.Snapshot() == old(db.Snapshot())
  {
    if id !in db.dogs {
      return NotFound;
    }
    if db.dogs[id].ownerId != caller {
      return Forbidden;
    }
    if exists l :: l in db.appointmentDogs && l.1 == id {
      return InternalError;
    }
    db.dogs := db.dogs - {id};
    status := NoContent;
  }
}

=== FILE: dog_schema.dfy ===
/**
 * dogSchema and createDogSchema as accept/reject predicates over the body
 * as sent. The breed lookup (an HTTP call to a public breed list, false when
 * the call fails) is the parameter `knownBreed`.
 */
module DogSchema {
  import opened Wrappers
  import opened Text
  import Persistence

  /**
   * The JSON body of POST and PUT /dogs. `idade` is a JSON number. `ownerId`
   * is not a key of the schema: the schema ignores it, but the body that
   * reaches the controller still carries it when the client sends it.
   */
  datatype DogBody = DogBody(
    nome: Option<string>,
    idade: Option<real>,
    raca: Option<string>,
    porte: Option<string>,
    ownerId: Option<string>)

  /** `.min(1)`: at least one code unit, that is, not empty. */
  predicate NomeOk(nome: string) {
    |nome| >= 1
  }

  predicate IdadeOk(idade: real) {
    IsInteger(idade) && 1.0 <= idade <= 20.0
  }

  /** Non-empty (`.min(1)`), then lowercased, then looked up in the breed list. */
  predicate RacaOk(raca: string, knownBreed: string -> bool) {
    |raca| >= 1 && knownBreed(Lower(raca))
  }

  /** `PorteEnum` (its extra refine re-checks the same membership). */
  predicate PorteOk(porte: string) {
    Persistence.ParsePorte(porte).Some?
  }

  predicate DogSchemaAccepts(b: DogBody, knownBreed: string -> bool) {
    && b.nome.Some? && NomeOk(b.nome.value)
    && b.idade.Some? && IdadeOk(b.idade.value)
    && b.raca.Some? && RacaOk(b.raca.value, knownBreed)
    && b.porte.Some? && PorteOk(b.porte.value)
  }

  /** `dogSchema.required()`: every key of dogSchema must be present. */
  predicate CreateDogSchemaAccepts(b: DogBody, knownBreed: string -> bool) {
    && DogSchemaAccepts(b, knownBreed)
    && b.nome.Some? && b.idade.Some? && b.raca.Some? && b.porte.Some?
  }

  /** `.required()` adds nothing: the keys of dogSchema are required already. */
  lemma CreateDogSchemaIsDogSchema(b: DogBody, knownBreed: string -> bool)
    ensures CreateDogSchemaAccepts(b, knownBreed) <==> DogSchemaAccepts(b, knownBreed)
  {
  }

  /** An age is accepted iff it is one of the whole numbers 1..20. */
  lemma IdadeOkIff(idade: real)
    ensures IdadeOk(idade) <==> idade in AcceptedAges()
  {
    if IdadeOk(idade) {
      var n := idade.Floor;
      assert 1 <= n <= 20;
      assert idade == AsNumber(n);
    }
  }

  /** A whole number written as a JSON number. */
  function AsNumber(n: int): real {
    n as real
  }

  /** The ages 1, 2, ..., 20 as JSON numbers. */
  function AcceptedAges(): set<real> {
    set n: int | 1 <= n <= 20 :: AsNumber(n)
  }

  /** The breed is looked up lowercased, so the case the client used does not matter. */
  lemma RacaCaseInsensitive(raca1: string, raca2: string, knownBreed: string -> bool)
    requires Lower(raca1) == Lower(raca2)
    ensures RacaOk(raca1, knownBreed) <==> RacaOk(raca2, knownBreed)
  {
    assert |raca1| == |Lower(raca1)| == |Lower(raca2)| == |raca2|;
  }

  /** The porte is accepted iff it names one of the three sizes. */
  lemma PorteOkIff(porte: string)
    ensures PorteOk(porte) <==> porte in {"PEQUENO", "MEDIO", "GRANDE"}
  {
  }
}

=== FILE: http.dfy ===
/** The HTTP status codes the controllers answer with. */
module Http {

  const Ok: int := 200
  const Created: int := 201
  const NoContent: int := 204
  const BadRequest: int := 400
  const Forbidden: int := 403
  const NotFound: int := 404
  const MethodNotAllowed: int := 405
  const Conflict: int := 409
  const InternalError: int := 500
}

=== FILE: ordering.dfy ===
/**
 * The store's `orderBy`: the rows a query selects, listed in an order that a
 * total relation `leq` accepts between neighbours. Ties are broken arbitrarily,
 * as a relational store does without a secondary key.
 */
module Ordering {

  ghost predicate Total<T(!new)>(leq: (T, T) -> bool) {
    forall a, b :: leq(a, b) || leq(b, a)
  }

  predicate Sorted<T>(xs: seq<T>, leq: (T, T) -> bool) {
    forall i :: 0 < i < |xs| ==> leq(xs[i - 1], xs[i])
  }

  function Insert<T(!new)>(x: T, xs: seq<T>, leq: (T, T) -> bool): (r: seq<T>)
    requires Total(leq) && Sorted(xs, leq)
    ensures Sorted(r, leq)
    ensures multiset(r) == multiset(xs) + multiset{x}
    ensures |r| > 0 && (r[0] == x || (|xs| > 0 && r[0] == xs[0]))
  {
    if xs == [] || leq(x, xs[0]) then [x] + xs
    else
      assert xs == [xs[0]] + xs[1..];
      [xs[0]] + Insert(x, xs[1..], leq)
  }

  function Sort<T(!new)>(xs: seq<T>, leq: (T, T) -> bool): (r: seq<T>)
    requires Total(leq)
    ensures Sorted(r, leq)
    ensures multiset(r) == multiset(xs)
  {
    if xs == [] then []
    else
      assert xs == [xs[0]] + xs[1..];
      Insert(xs[0], Sort(xs[1..], leq), leq)
  }

  /** The rows of a table, one per key, in no particular order. */
  ghost function Entries<K(!new), V(!new)>(m: map<K, V>): (r: seq<(K, V)>)
    ensures |r| == |m|
    ensures forall p :: p in r <==> p.0 in m && m[p.0] == p.1
    decreases |m|
  {
    if |m| == 0 then []
    else
      var k :| k in m;
      assert (m - {k}).Keys == m.Keys - {k};
      [(k, m[k])] + Entries(m - {k})
  }

  /** A table's rows listed once each, in an order `leq` accepts. */
  ghost function SortedEntries<K(!new), V(!new)>(m: map<K, V>, leq: ((K, V), (K, V)) -> bool): (r: seq<(K, V)>)
    requires Total(leq)
    ensures Sorted(r, leq)
    ensures |r| == |m|
    ensures forall p :: p in r <==> p.0 in m && m[p.0] == p.1
  {
    var e := Entries(m);
    var r := Sort(e, leq);
    assert forall p :: p in r <==> p in multiset(r);
    assert forall p :: p in e <==> p in multiset(e);
    assert |r| == |multiset(r)| == |multiset(e)| == |e|;
    r
  }
}

=== FILE: persistence.dfy ===
/**
 * An in-memory stand-in for the relational store the controllers talk to:
 * four tables keyed by id and two join tables of (appointmentId, otherId)
 * rows. What the real store enforces (foreign keys, unique columns,
 * cascades) is written here as explicit rules:
 *  - `User.email`, `User.cpf` and `Service.name` are unique;
 *  - every dog and appointment points at an existing user;
 *  - a join row points at an existing appointment and an existing dog or
 *    service;
 *  - join rows are deleted with their appointment (cascade), and block the
 *    deletion of the dog or service they point at (restrict).
 * One more rule is not the store's but the handlers': a linked dog belongs
 * to the appointment's user. The ownership-filtered count check keeps it
 * when an appointment is created or updated, and the corrected dog update
 * keeps it by never changing an owner.
 */
module Persistence {
  import opened Wrappers

  type Id = string

  datatype Status = AGENDADO | CONCLUIDO | CANCELADO
  datatype Porte = PEQUENO | MEDIO | GRANDE

  /** The store's enum check on a status column: the text must name a member. */
  function ParseStatus(s: string): (r: Option<Status>)
    ensures r.Some? <==> s in {"AGENDADO", "CONCLUIDO", "CANCELADO"}
    ensures r == Some(AGENDADO) <==> s == "AGENDADO"
    ensures r == Some(CONCLUIDO) <==> s == "CONCLUIDO"
    ensures r == Some(CANCELADO) <==> s == "CANCELADO"
  {
    if s == "AGENDADO" then Some(AGENDADO)
    else if s == "CONCLUIDO" then Some(CONCLUIDO)
    else if s == "CANCELADO" then Some(CANCELADO)
    else None
  }

  function ParsePorte(s: string): (r: Option<Porte>)
    ensures r.Some? <==> s in {"PEQUENO", "MEDIO", "GRANDE"}
    ensures r == Some(PEQUENO) <==> s == "PEQUENO"
    ensures r == Some(MEDIO) <==> s == "MEDIO"
    ensures r == Some(GRANDE) <==> s == "GRANDE"
  {
    if s == "PEQUENO" then Some(PEQUENO)
    else if s == "MEDIO" then Some(MEDIO)
    else if s == "GRANDE" then Some(GRANDE)
    else None
  }

  datatype User = User(nome: string, email: string, cpf: string, idade: int,
                       telefone: Option<string>, passwordHash: string, createdAt: int)
  datatype Dog = Dog(nome: string, idade: int, raca: string, porte: Porte, ownerId: Id)
  datatype Service = Service(name: string, price: int)
  datatype Appointment = Appointment(date: int, status: Status, userId: Id)

  /** A join row: (appointmentId, dogId) or (appointmentId, serviceId). */
  type Link = (Id, Id)

  datatype Tables = Tables(
    users: map<Id, User>,
    dogs: map<Id, Dog>,
    services: map<Id, Service>,
    appointments: map<Id, Appointment>,
    appointmentDogs: set<Link>,
    appointmentServices: set<Link>)

  /** The ids linked to appointment `a` by the join rows `links`. */
  function LinksOf(links: set<Link>, a: Id): set<Id> {
    set l | l in links && l.0 == a :: l.1
  }

  /** `deleteMany({ where: { appointmentId: a } })` on a join table. */
  function Unlink(links: set<Link>, a: Id): (r: set<Link>)
    ensures LinksOf(r, a) == {}
    ensures forall b :: b != a ==> LinksOf(r, b) == LinksOf(links, b)
    ensures r <= links
  {
    set l | l in links && l.0 != a
  }

  /** The join rows `createMany` inserts for appointment `a`, one per listed id. */
  function LinkAll(a: Id, ids: seq<Id>): (r: set<Link>)
    ensures LinksOf(r, a) == set i | i in ids
    ensures forall b :: b != a ==> LinksOf(r, b) == {}
  {
    var r := set i | i in ids :: (a, i);
    assert forall i :: i in ids ==> (a, i) in r;
    r
  }

  /** Unlink then insert: the join set of `a` becomes exactly `ids`, every other appointment keeps its own. */
  function ReplaceLinks(links: set<Link>, a: Id, ids: seq<Id>): (r: set<Link>)
    ensures LinksOf(r, a) == set i | i in ids
    ensures forall b :: b != a ==> LinksOf(r, b) == LinksOf(links, b)
  {
    Unlink(links, a) + LinkAll(a, ids)
  }

  ghost predicate UniqueUserKeys(users: map<Id, User>) {
    && (forall u, v :: u in users && v in users && users[u].email == users[v].email ==> u == v)
    && (forall u, v :: u in users && v in users && users[u].cpf == users[v].cpf ==> u == v)
  }

  ghost predicate UniqueServiceNames(services: map<Id, Service>) {
    forall s, r :: s in services && r in services && services[s].name == services[r].name ==> s == r
  }

  /** The integrity the store and the handlers maintain between the tables. */
  ghost predicate Consistent(t: Tables) {
    && UniqueUserKeys(t.users)
    && UniqueServiceNames(t.services)
    && (forall d :: d in t.dogs ==> t.dogs[d].ownerId in t.users)
    && (forall a :: a in t.appointments ==> t.appointments[a].userId in t.users)
    && (forall l :: l in t.appointmentDogs ==>
          && l.0 in t.appointments && l.1 in t.dogs
          && t.dogs[l.1].ownerId == t.appointments[l.0].userId)
    && (forall l :: l in t.appointmentServices ==> l.0 in t.appointments && l.1 in t.services)
  }

  /** One statement of a `$transaction([...])` batch. */
  datatype Op =
    | UpdateAppointmentRow(id: Id, date: Option<int>, status: Option<string>)
    | DeleteDogLinks(appointmentId: Id)
    | CreateDogLinks(appointmentId: Id, dogIds: seq<Id>)
    | DeleteServiceLinks(appointmentId: Id)
    | CreateServiceLinks(appointmentId: Id, serviceIds: seq<Id>)

  /**
   * One statement run against `t`; `None` when the store rejects it: an
   * update of a missing row (P2025), a status outside the enum, a join row
   * whose foreign key dangles. An absent field leaves its column as it is.
   */
  function ApplyOp(t: Tables, op: Op): (r: Option<Tables>)
    ensures r.Some? ==> r.value.users == t.users && r.value.dogs == t.dogs && r.value.services == t.services
    ensures r.Some? ==> r.value.appointments.Keys == t.appointments.Keys
  {
    match op
    case UpdateAppointmentRow(id, date, status) =>
      if id !in t.appointments then None
      else if status.Some? && ParseStatus(status.value).None? then None
      else
        var a := t.appointments[id];
        var s := if status.Some? then ParseStatus(status.value).value else a.status;
        Some(t.(appointments := t.appointments[id := a.(date := date.GetOr(a.date), status := s)]))
    case DeleteDogLinks(a) =>
      Some(t.(appointmentDogs := Unlink(t.appointmentDogs, a)))
    case CreateDogLinks(a, ids) =>
      if a in t.appointments && forall i :: i in ids ==> i in t.dogs
      then Some(t.(appointmentDogs := t.appointmentDogs + LinkAll(a, ids)))
      else None
    case DeleteServiceLinks(a) =>
      Some(t.(appointmentServices := Unlink(t.appointmentServices, a)))
    case CreateServiceLinks(a, ids) =>
      if a in t.appointments && forall i :: i in ids ==> i in t.services
      then Some(t.(appointmentServices := t.appointmentServices + LinkAll(a, ids)))
      else None
  }

  /**
   * A batch run as one transaction: every statement sees the effect of the
   * ones before it, and the batch yields a new state only if all of them
   * succeed. A failed batch yields nothing, so the caller commits nothing.
   */
  function ApplyAll(t: Tables, ops: seq<Op>): (r: Option<Tables>)
    ensures ops == [] ==> r == Some(t)
    ensures ops != [] && ApplyOp(t, ops[0]).None? ==> r.None?
    ensures r.Some? ==> r.value.users == t.users && r.value.dogs == t.dogs && r.value.services == t.services
    ensures r.Some? ==> r.value.appointments.Keys == t.appointments.Keys
    decreases |ops|
  {
    if ops == [] then Some(t)
    else
      match ApplyOp(t, ops[0])
      case None => None
      case Some(t1) => ApplyAll(t1, ops[1..])
  }

  /** The store: its tables are fields that each request rewrites in one step. */
  class Store {
    var users: map<Id, User>
    var dogs: map<Id, Dog>
    var services: map<Id, Service>
    var appointments: map<Id, Appointment>
    var appointmentDogs: set<Link>
    var appointmentServices: set<Link>

    function Snapshot(): Tables
      reads this
    {
      Tables(users, dogs, services, appointments, appointmentDogs, appointmentServices)
    }

    ghost predicate Valid()
      reads this
    {
      Consistent(Snapshot())
    }

    /** A store holding the registered users and nothing else (registration itself is not modelled). */
    constructor (registered: map<Id, User>)
      requires UniqueUserKeys(registered)
      ensures Valid()
      ensures Snapshot() == Tables(registered, map[], map[], map[], {}, {})
    {
      users := registered;
      dogs := map[];
      services := map[];
      appointments := map[];
      appointmentDogs := {};
      appointmentServices := {};
    }

    /** Makes a state computed by a successful transaction the store's state, all at once. */
    method Commit(t: Tables)
      modifies this
      ensures Snapshot() == t
    {
      users, dogs, services := t.users, t.dogs, t.services;
      appointments, appointmentDogs, appointmentServices := t.appointments, t.appointmentDogs, t.appointmentServices;
    }
  }
}

=== FILE: service_controller.dfy ===
/**
 * The service handlers. Services are a global catalogue: anyone may read
 * them, without a token, and any authenticated caller may create, change or
 * delete them. The store's own errors decide the outcome: a missing row is
 * 404, a taken name or a service still booked on an appointment is 409.
 */
module ServiceController {
  import opened Wrappers
  import opened Http
  import opened Text
  import opened Ordering
  import opened Persistence

  /** The JSON body of POST and PUT /services; `price` is in cents. */
  datatype ServiceBody = ServiceBody(name: Option<string>, price: Option<int>)

  /** Whether some service other than `except` already has `name`. */
  predicate NameTaken(services: map<Id, Service>, name: string, except: Option<Id>) {
    exists s :: s in services && services[s].name == name && Some(s) != except
  }

  /** POST /services. The store assigns the fresh id `newId`; a missing field is refused by the store (500). */
  method CreateService(db: Store, b: ServiceBody, newId: Id) returns (status: int)
    requires db.Valid()
    requires newId !in db.services
    modifies db
    ensures db.Valid()
    ensures status == Created || status == Conflict || status == InternalError
    ensures status == InternalError <==> b.name.None? || b.price.None?
    ensures status == Conflict <==> b.name.Some? && b.price.Some? && NameTaken(old(db.services), b.name.value, None)
    ensures status == Created ==>
              db.Snapshot() == old(db.Snapshot()).(services := old(db.services)[newId := Service(b.name.value, b.price.value)])
    ensures status != Created ==> db.Snapshot() == old(db.Snapshot())
  {
    if b.name.None? || b.price.None? {
      return InternalError;
    }
    if exists s :: s in db.services && db.services[s].name == b.name.value {
      return Conflict;
    }
    db.services := db.services[newId := Service(b.name.value, b.price.value)];
    status := Created;
  }

  /** GET /services/:id. */
  function GetServiceById(t: Tables, id: Id): (r: (int, Option<Service>))
    ensures r.0 == Ok || r.0 == NotFound
    ensures r.0 == NotFound <==> id !in t.services
    ensures r.0 == Ok ==> r.1 == Some(t.services[id])
    ensures r.0 == NotFound ==> r.1 == None
  {
    if id in t.services then (Ok, Some(t.services[id])) else (NotFound, None)
  }

  /** `orderBy: { name: 'asc' }`. */
  predicate ByName(p: (Id, Service), q: (Id, Service)) {
    LexLeq(p.1.name, q.1.name)
  }

  lemma ByNameTotal()
    ensures Total(ByName)
  {
    forall p: (Id, Service), q: (Id, Service) ensures ByName(p, q) || ByName(q, p) {
      LexLeqTotal(p.1.name, q.1.name);
    }
  }

  /** GET /services: every service once, by name ascending. */
  ghost function GetAllServices(t: Tables): (r: seq<(Id, Service)>)
    ensures forall i :: 0 < i < |r| ==> LexLeq(r[i - 1].1.name, r[i].1.name)
    ensures forall p :: p in r <==> p.0 in t.services && t.services[p.0] == p.1
    ensures |r| == |t.services|
  {
    ByNameTotal();
    var r := SortedEntries(t.services, ByName);
    assert Sorted(r, ByName);
    r
  }

  /** The row an update writes: a supplied field replaces the stored one. */
  function PatchService(s: Service, b: ServiceBody): (r: Service)
    ensures b.name.Some? ==> r.name == b.name.value
    ensures b.name.None? ==> r.name == s.name
    ensures b.price.Some? ==> r.price == b.price.value
    ensures b.price.None? ==> r.price == s.price
  {
    Service(b.name.GetOr(s.name), b.price.GetOr(s.price))
  }

  /** PUT /services/:id: 404 for a missing service, 409 for a name another service has. */
  method UpdateService(db: Store, id: Id, b: ServiceBody) returns (status: int)
    requires db.Valid()
    modifies db
    ensures db.Valid()
    ensures status == Ok || status == NotFound || status == Conflict
    ensures status == NotFound <==> id !in old(db.services)
    ensures status == Conflict <==>
              id in old(db.services) && b.name.Some? && NameTaken(old(db.services), b.name.value, Some(id))
    ensures status == Ok ==>
              && db.Snapshot() == old(db.Snapshot()).(services := old(db.services)[id := PatchService(old(db.services[id]), b)])
              && (b.name.Some? ==> db.services[id].name == b.name.value)
              && (b.price.Some? ==> db.services[id].price == b.price.value)
              && (b.name.None? ==> db.services[id].name == old(db.services[id].name))
              && (b.price.None? ==> db.services[id].price == old(db.services[id].price))
    ensures status != Ok ==> db.Snapshot() == old(db.Snapshot())
  {
    if id !in db.services {
      return NotFound;
    }
    if b.name.Some? && exists s :: s in db.services && db.services[s].name == b.name.value && s != id {
      return Conflict;
    }
    db.services := db.services[id := PatchService(db.services[id], b)];
    status := Ok;
  }

  /** DELETE /services/:id: 404 for a missing service, 409 while appointments still book it. */
  method DeleteService(db: Store, id: Id) returns (status: int)
    requires db.Valid()
    modifies db
    ensures db.Valid()
    ensures status == NoContent || status == NotFound || status == Conflict
    ensures status == NotFound <==> id !in old(db.services)
    ensures status == Conflict <==> id in old(db.services) && exists l :: l in old(db.appointmentServices) && l.1 == id
    ensures status == NoContent ==> db.Snapshot() == old(db.Snapshot()).(services := old(db.services) - {id})
    ensures status != NoContent ==> db.Snapshot() == old(db.Snapshot())
  {
    if id !in db.services {
      return NotFound;
    }
    if exists l :: l in db.appointmentServices && l.1 == id {
      return Conflict;
    }
    db.services := db.services - {id};
    status := NoContent;
  }
}

=== FILE: text.dfy ===
/** Character classes, string orderings and the number test shared by the schemas, the store and its ORDER BY. */
module Text {

  /** `\d` in a JavaScript regular expression: an ASCII digit. */
  predicate IsDigit(c: char) {
    '0' <= c <= '9'
  }

  /** The digits of `s`, in order (what a phone number is once its punctuation is dropped). */
  function DigitsOf(s: string): (d: string)
    ensures |d| <= |s|
    ensures forall i :: 0 <= i < |d| ==> IsDigit(d[i])
  {
    if s == [] then []
    else (if IsDigit(s[0]) then [s[0]] else []) + DigitsOf(s[1..])
  }

  /** `String.prototype.toLowerCase` on one character, restricted to ASCII letters. */
  function LowerChar(c: char): char {
    if 'A' <= c <= 'Z' then (c as int + 32) as char else c
  }

  function Lower(s: string): string {
    seq(|s|, i requires 0 <= i < |s| => LowerChar(s[i]))
  }

  /**
   * The UTF-16 code units of one character, the units JavaScript strings are
   * made of: the character itself inside the Basic Multilingual Plane, a
   * surrogate pair outside it.
   */
  function CodeUnits(c: char): (r: seq<int>)
    ensures 1 <= |r| <= 2
    ensures |r| == 1 <==> c as int < 0x10000
    ensures |r| == 1 ==> r[0] == c as int
    ensures |r| == 2 ==> 0xD800 <= r[0] < 0xDC00 && 0xDC00 <= r[1] < 0xE000
  {
    var v := c as int;
    if v < 0x10000 then [v]
    else [0xD800 + (v - 0x10000) / 0x400, 0xDC00 + (v - 0x10000) % 0x400]
  }

  /** The UTF-16 encoding of a string. */
  function Utf16(s: string): seq<int> {
    if s == [] then [] else CodeUnits(s[0]) + Utf16(s[1..])
  }

  /** `length` in JavaScript, which `.min`, `.max` and `.{n,}` count: code units, not characters. */
  function JsLength(s: string): nat {
    |Utf16(s)|
  }

  /** A character outside the Basic Multilingual Plane, which JavaScript counts twice. */
  predicate IsAstral(c: char) {
    c as int >= 0x10000
  }

  /**
   * JavaScript's length lies between the number of characters and twice
   * that, and equals the number of characters exactly when none is astral.
   */
  lemma {:induction false} JsLengthBounds(s: string)
    ensures |s| <= JsLength(s) <= 2 * |s|
    ensures JsLength(s) == |s| <==> forall i :: 0 <= i < |s| ==> !IsAstral(s[i])
  {
    if s != [] {
      JsLengthBounds(s[1..]);
      assert forall i :: 1 <= i < |s| ==> s[i] == s[1..][i - 1];
    }
  }

  /** Lexicographic order on characters (code points): the order text columns are sorted by here. */
  predicate LexLeq(a: string, b: string) {
    if a == [] then true
    else if b == [] then false
    else if a[0] != b[0] then a[0] < b[0]
    else LexLeq(a[1..], b[1..])
  }

  /** Any two strings are comparable, so sorting by a text column is well defined. */
  lemma {:induction false} LexLeqTotal(a: string, b: string)
    ensures LexLeq(a, b) || LexLeq(b, a)
  {
    if a != [] && b != [] && a[0] == b[0] {
      LexLeqTotal(a[1..], b[1..]);
    }
  }

  /**
   * A JSON number with no fractional part: what `z.number().int()` demands
   * and what the store's integer columns accept.
   */
  predicate IsInteger(x: real) {
    x == x.Floor as real
  }
}

=== FILE: user_controller.dfy ===
/**
 * The user handlers. Users are created by registration, which is not part
 * of this model; these handlers read profiles, and let a user change or
 * delete their own.
 */
module UserController {
  import opened Wrappers
  import opened Http
  import opened Ordering
  import opened Persistence
  import opened Text
  import opened UserSchema

  /** What a user read shows: every column but the password hash. */
  datatype PublicUser = PublicUser(
    id: Id, nome: string, email: string, cpf: string, idade: int,
    telefone: Option<string>, createdAt: int)

  function PublicOf(id: Id, u: User): PublicUser {
    PublicUser(id, u.nome, u.email, u.cpf, u.idade, u.telefone, u.createdAt)
  }

  /**
   * The public view hides the password hash and nothing else: two rows of
   * the same user show the same view exactly when they differ at most in
   * their hash.
   */
  lemma PublicViewHidesOnlyHash(id: Id, u: User, v: User)
    ensures PublicOf(id, u) == PublicOf(id, v) <==> u.(passwordHash := v.passwordHash) == v
  {
  }

  /** GET /users/:id. */
  function GetUserById(t: Tables, id: Id): (r: (int, Option<PublicUser>))
    ensures r.0 == Ok || r.0 == NotFound
    ensures r.0 == NotFound <==> id !in t.users
    ensures r.0 == Ok ==> r.1 == Some(PublicOf(id, t.users[id]))
    ensures r.0 == NotFound ==> r.1 == None
  {
    if id in t.users then (Ok, Some(PublicOf(id, t.users[id]))) else (NotFound, None)
  }

  function PublicUsers(users: map<Id, User>): map<Id, PublicUser> {
    map u | u in users :: PublicOf(u, users[u])
  }

  /** `orderBy: { createdAt: 'desc' }`. */
  predicate NewestFirst(p: (Id, PublicUser), q: (Id, PublicUser)) {
    p.1.createdAt >= q.1.createdAt
  }

  /** GET /users: every user once, without the hash, newest first. */
  ghost function GetAllUsers(t: Tables): (r: seq<(Id, PublicUser)>)
    ensures forall i :: 0 < i < |r| ==> r[i - 1].1.createdAt >= r[i].1.createdAt
    ensures forall p :: p in r <==> p.0 in t.users && p.1 == PublicOf(p.0, t.users[p.0])
    ensures |r| == |t.users|
  {
    var r := SortedEntries(PublicUsers(t.users), NewestFirst);
    assert Sorted(r, NewestFirst);
    assert PublicUsers(t.users).Keys == t.users.Keys;
    r
  }

  /** Nothing a read returns depends on the password hash. */
  lemma ReadsIgnorePasswordHash(t: Tables, id: Id, u: Id, hash: string)
    requires u in t.users
    ensures var t' := t.(users := t.users[u := t.users[u].(passwordHash := hash)]);
            && GetUserById(t', id) == GetUserById(t, id)
            && GetAllUsers(t') == GetAllUsers(t)
  {
    var t' := t.(users := t.users[u := t.users[u].(passwordHash := hash)]);
    assert PublicUsers(t'.users) == PublicUsers(t.users) by {
      assert t'.users.Keys == t.users.Keys;
      forall k | k in t.users
        ensures PublicOf(k, t'.users[k]) == PublicOf(k, t.users[k])
      {
        PublicViewHidesOnlyHash(k, t'.users[k], t.users[k]);
      }
    }
    assert GetAllUsers(t') == SortedEntries(PublicUsers(t'.users), NewestFirst);
  }

  /** POST /users: creation is registration's job, so this always refuses and changes nothing. */
  method CreateUser(db: Store) returns (status: int)
    ensures status == MethodNotAllowed
  {
    status := MethodNotAllowed;
  }

  /**
   * The row an update evidently means to write: the profile fields the body
   * supplies replace the stored ones; `None` when the store refuses the data
   * (an age that is not a whole number). The password hash and the creation
   * time are not profile fields and stay as they are.
   */
  function PatchUser(u: User, b: UpdateUserBody): (r: Option<User>)
    ensures r.Some? <==> (b.idade.Some? ==> IsInteger(b.idade.value))
    ensures r.Some? ==> r.value.passwordHash == u.passwordHash && r.value.createdAt == u.createdAt
    ensures r.Some? ==> (b.nome.Some? ==> r.value.nome == b.nome.value) && (b.nome.None? ==> r.value.nome == u.nome)
    ensures r.Some? ==> (b.email.Some? ==> r.value.email == b.email.value) && (b.email.None? ==> r.value.email == u.email)
    ensures r.Some? ==> (b.cpf.Some? ==> r.value.cpf == b.cpf.value) && (b.cpf.None? ==> r.value.cpf == u.cpf)
    ensures r.Some? ==> (b.idade.Some? ==> r.value.idade as real == b.idade.value) && (b.idade.None? ==> r.value.idade == u.idade)
    ensures r.Some? ==> (b.telefone.Some? ==> r.value.telefone == b.telefone) && (b.telefone.None? ==> r.value.telefone == u.telefone)
  {
    if b.idade.Some? && !IsInteger(b.idade.value) then None
    else
      Some(User(
        b.nome.GetOr(u.nome), b.email.GetOr(u.email), b.cpf.GetOr(u.cpf),
        if b.idade.Some? then b.idade.value.Floor else u.idade,
        if b.telefone.Some? then b.telefone else u.telefone,
        u.passwordHash, u.createdAt))
  }

  /**
   * The row `user.update` writes as the handler is written: it passes the
   * whole body as the update's data, so a `passwordHash` or `createdAt` key,
   * which the schema does not look at, is written too.
   */
  function PatchUserAsWritten(u: User, b: UpdateUserBody): (r: Option<User>)
    ensures r.Some? <==> PatchUser(u, b).Some?
    ensures r.Some? ==> r.value.passwordHash == b.passwordHash.GetOr(u.passwordHash)
    ensures r.Some? ==> r.value.createdAt == b.createdAt.GetOr(u.createdAt)
  {
    match PatchUser(u, b)
    case None => None
    case Some(p) =>
      Some(p.(passwordHash := b.passwordHash.GetOr(u.passwordHash), createdAt := b.createdAt.GetOr(u.createdAt)))
  }

  /**
   * A body the schema accepts, sent by a user for their own profile,
   * replaces their stored password hash by the text it carries, with no
   * hashing and no check of the old password; the evidently intended update
   * keeps the hash.
   */
  lemma AsWrittenUpdateOverwritesHash()
    ensures var u := User("Ana", "a@x", "00000000000", 30, None, "hash-of-secret", 0);
            var b := UpdateUserBody(None, None, None, None, None, Some("x"), None);
            && UpdateUserSchemaAccepts(b, e => true)
            && PatchUserAsWritten(u, b).Some? && PatchUserAsWritten(u, b).value.passwordHash == "x"
            && PatchUser(u, b).Some? && PatchUser(u, b).value.passwordHash == "hash-of-secret"
  {
  }

  /** Behind updateUserSchema the store never refuses the data of an update. */
  lemma AcceptedUpdateIsStored(u: User, b: UpdateUserBody, isEmail: string -> bool)
    requires UpdateUserSchemaAccepts(b, isEmail)
    ensures PatchUser(u, b).Some?
    ensures var p := PatchUser(u, b).value;
            && (b.nome.Some? ==> p.nome == b.nome.value && NomeOk(p.nome))
            && (b.cpf.Some? ==> p.cpf == b.cpf.value && CpfOk(p.cpf))
            && (b.idade.Some? ==> p.idade as real == b.idade.value && p.idade > 0)
            && (b.email.Some? ==> p.email == b.email.value && EmailOk(p.email, isEmail))
            && (b.telefone.Some? ==> p.telefone == b.telefone && PhoneOk(b.telefone.value))
  {
  }

  /** Whether some user other than `self` already has this email or cpf. */
  predicate KeyTaken(users: map<Id, User>, self: Id, p: User) {
    exists v :: v in users && v != self && (users[v].email == p.email || users[v].cpf == p.cpf)
  }

  /**
   * PUT /users/:id. Only the caller's own profile (403 before anything is
   * read); then the store's answers: ill-typed data (500), a missing user
   * (404), an email or cpf another user has (409).
   */
  method UpdateUser(db: Store, id: Id, caller: Id, b: UpdateUserBody) returns (status: int, view: Option<PublicUser>)
    requires db.Valid()
    modifies db
    ensures db.Valid()
    ensures status == Ok || status == Forbidden || status == InternalError || status == NotFound || status == Conflict
    ensures status == Forbidden <==> id != caller
    ensures status == InternalError <==> id == caller && b.idade.Some? && !IsInteger(b.idade.value)
    ensures status == NotFound <==> id == caller && (b.idade.Some? ==> IsInteger(b.idade.value)) && id !in old(db.users)
    ensures status == Conflict <==>
              && id == caller && id in old(db.users) && PatchUser(old(db.users[id]), b).Some?
              && KeyTaken(old(db.users), id, PatchUser(old(db.users[id]), b).value)
    ensures status == Ok ==>
              && db.Snapshot() == old(db.Snapshot()).(users := old(db.users)[id := PatchUser(old(db.users[id]), b).value])
              && view == Some(PublicOf(id, db.users[id]))
    ensures status != Ok ==> db.Snapshot() == old(db.Snapshot()) && view == None
  {
    view := None;
    if id != caller {
      return Forbidden, view;
    }
    if b.idade.Some? && !IsInteger(b.idade.value) {
      return InternalError, view;
    }
    if id !in db.users {
      return NotFound, view;
    }
    var updated := PatchUser(db.users[id], b).value;
    if exists v :: v in db.users && v != id && (db.users[v].email == updated.email || db.users[v].cpf == updated.cpf) {
      return Conflict, view;
    }
    db.users := db.users[id := updated];
    status, view := Ok, Some(PublicOf(id, updated));
  }

  /**
   * The tables after deleting user `id`: their dogs and appointments go
   * with them, and so do the join rows of those appointments.
   */
  function WithoutUser(t: Tables, id: Id): (r: Tables)
    ensures r.users.Keys == t.users.Keys - {id}
    ensures forall d :: d in r.dogs <==> d in t.dogs && t.dogs[d].ownerId != id
    ensures forall a :: a in r.appointments <==> a in t.appointments && t.appointments[a].userId != id
    ensures r.services == t.services
    ensures forall u :: u in r.users ==> r.users[u] == t.users[u]
    ensures forall d :: d in r.dogs ==> r.dogs[d] == t.dogs[d]
    ensures forall a :: a in r.appointments ==> r.appointments[a] == t.appointments[a]
    ensures r.appointmentDogs == set l | l in t.appointmentDogs && l.0 in r.appointments
    ensures r.appointmentServices == set l | l in t.appointmentServices && l.0 in r.appointments
  {
    var appointments := map a | a in t.appointments && t.appointments[a].userId != id :: t.appointments[a];
    t.(users := t.users - {id},
       dogs := (map d | d in t.dogs && t.dogs[d].ownerId != id :: t.dogs[d]),
       appointments := appointments,
       appointmentDogs := (set l | l in t.appointmentDogs && l.0 in appointments),
       appointmentServices := (set l | l in t.appointmentServices && l.0 in appointments))
  }

  /** Deleting a user and everything they own leaves every remaining link intact. */
  lemma WithoutUserConsistent(t: Tables, id: Id)
    requires Consistent(t)
    ensures Consistent(WithoutUser(t, id))
  {
    var r := WithoutUser(t, id);
    forall l | l in r.appointmentDogs
      ensures l.0 in r.appointments && l.1 in r.dogs && r.dogs[l.1].ownerId == r.appointments[l.0].userId
    {
      assert t.dogs[l.1].ownerId == t.appointments[l.0].userId;
    }
  }

  /**
   * DELETE /users/:id. Only the caller's own profile (403); a missing user
   * is 404; otherwise the user goes, with their dogs and appointments.
   */
  method DeleteUser(db: Store, id: Id, caller: Id) returns (status: int)
    requires db.Valid()
    modifies db
    ensures db.Valid()
    ensures status == NoContent || status == Forbidden || status == NotFound
    ensures status == Forbidden <==> id != caller
    ensures status == NotFound <==> id == caller && id !in old(db.users)
    ensures status == NoContent ==> db.Snapshot() == WithoutUser(old(db.Snapshot()), id)
    ensures status != NoContent ==> db.Snapshot() == old(db.Snapshot())
  {
    if id != caller {
      return Forbidden;
    }
    if id !in db.users {
      return NotFound;
    }
    WithoutUserConsistent(db.Snapshot(), id);
    db.Commit(WithoutUser(db.Snapshot(), id));
    status := NoContent;
  }
}

=== FILE: user_schema.dfy ===
/**
 * The user request schemas (registration, login, profile update) and the
 * three regular expressions they use, as accept/reject predicates. Strings
 * are sequences of characters (code points), while JavaScript counts a
 * string's length, and runs a regular expression without the `u` flag, in
 * UTF-16 code units; the length bounds therefore use `Text.JsLength`. The
 * cpf and phone patterns match only characters of the Basic Multilingual
 * Plane, one code unit each, so reading them over characters accepts the
 * same strings.
 */
module UserSchema {
  import opened Wrappers
  import opened Text

  predicate AllDigits(s: string) {
    forall i :: 0 <= i < |s| ==> IsDigit(s[i])
  }

  /** `cpfRegex` (`^\d{11}$`) together with `.max(11)`. */
  predicate CpfOk(cpf: string) {
    |cpf| == 11 && AllDigits(cpf) && JsLength(cpf) <= 11
  }

  /** The characters `.` does not match: the four line terminators. */
  predicate IsLineTerminator(c: char) {
    c == '\n' || c == '\r' || c == '\U{2028}' || c == '\U{2029}'
  }

  /**
   * `passwordRegex` (`^.{8,}$`, no flags): at least eight code units and no
   * line terminator. An astral character is two code units, each of which
   * `.` matches.
   */
  predicate PasswordOk(password: string) {
    JsLength(password) >= 8 && forall i :: 0 <= i < |password| ==> !IsLineTerminator(password[i])
  }

  /** A code unit `.` does not match. */
  predicate IsTerminatorUnit(u: int) {
    u == 0x0A || u == 0x0D || u == 0x2028 || u == 0x2029
  }

  /** `^.{8,}$` run as JavaScript runs it, over the code units of the input. */
  predicate PasswordRegexMatches(units: seq<int>) {
    |units| >= 8 && forall j :: 0 <= j < |units| ==> !IsTerminatorUnit(units[j])
  }

  /** A string holds a line terminator iff its UTF-16 encoding holds a terminator unit. */
  lemma {:induction false} TerminatorUnits(s: string)
    ensures (exists i :: 0 <= i < |s| && IsLineTerminator(s[i]))
        <==> (exists j :: 0 <= j < |Utf16(s)| && IsTerminatorUnit(Utf16(s)[j]))
  {
    if s != [] {
      TerminatorUnits(s[1..]);
      var head, tail := CodeUnits(s[0]), Utf16(s[1..]);
      assert Utf16(s) == head + tail;
      if exists i :: 0 <= i < |s| && IsLineTerminator(s[i]) {
        var i :| 0 <= i < |s| && IsLineTerminator(s[i]);
        if i == 0 {
          assert IsTerminatorUnit(Utf16(s)[0]);
        } else {
          assert s[1..][i - 1] == s[i];
          var j :| 0 <= j < |tail| && IsTerminatorUnit(tail[j]);
          assert Utf16(s)[|head| + j] == tail[j];
        }
      }
      if exists j :: 0 <= j < |Utf16(s)| && IsTerminatorUnit(Utf16(s)[j]) {
        var j :| 0 <= j < |Utf16(s)| && IsTerminatorUnit(Utf16(s)[j]);
        if j < |head| {
          assert IsLineTerminator(s[0]);
        } else {
          assert tail[j - |head|] == Utf16(s)[j];
          var i :| 0 <= i < |s[1..]| && IsLineTerminator(s[1..][i]);
          assert s[i + 1] == s[1..][i];
        }
      }
    }
  }

  /** The password predicate accepts exactly the strings whose code units `^.{8,}$` matches. */
  lemma PasswordOkIsRegex(password: string)
    ensures PasswordOk(password) <==> PasswordRegexMatches(Utf16(password))
  {
    TerminatorUnits(password);
  }

  /**
   * Four emoji are eight code units, so they make a valid password, while
   * seven letters do not.
   */
  lemma PasswordCountsCodeUnits()
    ensures PasswordOk("\U{1F600}\U{1F600}\U{1F600}\U{1F600}")
    ensures !PasswordOk("abcdefg")
  {
    var e := "\U{1F600}";
    assert |CodeUnits(e[0])| == 2;
    assert e[1..] == [] && (e + e)[1..] == e && (e + e + e)[1..] == e + e && (e + e + e + e)[1..] == e + e + e;
    assert JsLength(e) == 2;
    assert JsLength(e + e) == 4;
    assert JsLength(e + e + e) == 6;
    JsLengthBounds("abcdefg");
  }

  /** `\s`: the characters JavaScript counts as white space or line terminators. */
  predicate IsJsSpace(c: char) {
    || c == '\t' || c == '\n' || c == '\U{000B}' || c == '\U{000C}' || c == '\r' || c == ' '
    || c == '\U{00A0}' || c == '\U{1680}' || ('\U{2000}' <= c <= '\U{200A}')
    || c == '\U{2028}' || c == '\U{2029}' || c == '\U{202F}' || c == '\U{205F}'
    || c == '\U{3000}' || c == '\U{FEFF}'
  }

  function DropIf(s: string, c: char): string {
    if |s| > 0 && s[0] == c then s[1..] else s
  }

  function DropSpace(s: string): string {
    if |s| > 0 && IsJsSpace(s[0]) then s[1..] else s
  }

  /**
   * `telefoneBrRegex` (`^\(?\d{2}\)?\s?9\d{4}-?\d{4}$`), read left to right.
   * Each optional token is taken whenever the next character is that token:
   * the token that follows it can never start with that character, so
   * skipping it could not lead to a match (PhoneOkIsRegex proves it).
   */
  predicate PhoneOk(s: string) {
    AreaCodeOk(DropIf(s, '('))
  }

  /** `\d{2}\)?\s?` and what follows. */
  predicate AreaCodeOk(s1: string) {
    |s1| >= 2 && IsDigit(s1[0]) && IsDigit(s1[1]) && MobileOk(DropSpace(DropIf(s1[2..], ')')))
  }

  /** `9\d{4}-?` and what follows. */
  predicate MobileOk(s2: string) {
    |s2| >= 5 && s2[0] == '9' && AllDigits(s2[1..5]) && LastFourOk(DropIf(s2[5..], '-'))
  }

  /** `\d{4}$`. */
  predicate LastFourOk(s3: string) {
    |s3| == 4 && AllDigits(s3)
  }

  function Opt(present: bool, c: char): string {
    if present then [c] else []
  }

  function SpaceText(space: Option<char>): string {
    if space.Some? then [space.value] else []
  }

  /** The strings the regular expression describes, one choice per optional token. */
  function PhoneText(open: bool, ddd: string, close: bool, space: Option<char>,
                     head: string, dash: bool, tail: string): string
  {
    Opt(open, '(') + (ddd + (Opt(close, ')') + (SpaceText(space)
      + ("9" + (head + (Opt(dash, '-') + tail))))))
  }

  ghost predicate PhoneRegex(s: string) {
    exists open: bool, ddd: string, close: bool, space: Option<char>, head: string, dash: bool, tail: string ::
      && |ddd| == 2 && AllDigits(ddd)
      && (space.Some? ==> IsJsSpace(space.value))
      && |head| == 4 && AllDigits(head)
      && |tail| == 4 && AllDigits(tail)
      && s == PhoneText(open, ddd, close, space, head, dash, tail)
  }

  lemma DropOpt(present: bool, c: char, rest: string)
    requires rest == [] || rest[0] != c
    ensures DropIf(Opt(present, c) + rest, c) == rest
  {
    if present {
      assert (Opt(present, c) + rest)[1..] == rest;
    }
  }

  /** The left-to-right reading accepts exactly the strings the regular expression describes. */
  lemma PhoneOkIsRegex(s: string)
    ensures PhoneOk(s) <==> PhoneRegex(s)
  {
    if PhoneOk(s) {
      PhoneOkMatches(s);
    }
    if PhoneRegex(s) {
      var open: bool, ddd: string, close: bool, space: Option<char>, head: string, dash: bool, tail: string :|
        && |ddd| == 2 && AllDigits(ddd)
        && (space.Some? ==> IsJsSpace(space.value))
        && |head| == 4 && AllDigits(head)
        && |tail| == 4 && AllDigits(tail)
        && s == PhoneText(open, ddd, close, space, head, dash, tail);
      RegexMatchesPhoneOk(open, ddd, close, space, head, dash, tail);
    }
  }

  lemma PhoneOkMatches(s: string)
    requires PhoneOk(s)
    ensures PhoneRegex(s)
  {
    var open := |s| > 0 && s[0] == '(';
    var s1 := DropIf(s, '(');
    DropIfSplit(s, '(');
    var close := |s1[2..]| > 0 && s1[2..][0] == ')';
    var space := LeadSpace(DropIf(s1[2..], ')'));
    var s2 := DropSpace(DropIf(s1[2..], ')'));
    AreaCodeSplit(s1);
    var dash := |s2[5..]| > 0 && s2[5..][0] == '-';
    var tail := DropIf(s2[5..], '-');
    MobileSplit(s2);
    assert s == PhoneText(open, s1[..2], close, space, s2[1..5], dash, tail);
    PhoneTextIsRegex(open, s1[..2], close, space, s2[1..5], dash, tail);
  }

  function LeadSpace(s: string): Option<char> {
    if |s| > 0 && IsJsSpace(s[0]) then Some(s[0]) else None
  }

  lemma DropIfSplit(s: string, c: char)
    ensures s == Opt(|s| > 0 && s[0] == c, c) + DropIf(s, c)
  {
    if |s| > 0 && s[0] == c {
      assert s == [s[0]] + s[1..];
    }
  }

  lemma DropSpaceSplit(s: string)
    ensures s == SpaceText(LeadSpace(s)) + DropSpace(s)
    ensures LeadSpace(s).Some? ==> IsJsSpace(LeadSpace(s).value)
  {
    if LeadSpace(s).Some? {
      assert s == [s[0]] + s[1..];
    }
  }

  lemma AreaCodeSplit(s1: string)
    requires AreaCodeOk(s1)
    ensures var rest := s1[2..];
            var s2 := DropSpace(DropIf(rest, ')'));
            && s1 == s1[..2] + (Opt(|rest| > 0 && rest[0] == ')', ')') + (SpaceText(LeadSpace(DropIf(rest, ')'))) + s2))
            && AllDigits(s1[..2])
            && (LeadSpace(DropIf(rest, ')')).Some? ==> IsJsSpace(LeadSpace(DropIf(rest, ')')).value))
            && MobileOk(s2)
  {
    var rest := s1[2..];
    assert s1 == s1[..2] + rest;
    DropIfSplit(rest, ')');
    DropSpaceSplit(DropIf(rest, ')'));
  }

  lemma MobileSplit(s2: string)
    requires MobileOk(s2)
    ensures var r3 := s2[5..];
            && s2 == "9" + (s2[1..5] + (Opt(|r3| > 0 && r3[0] == '-', '-') + DropIf(r3, '-')))
            && AllDigits(s2[1..5])
            && LastFourOk(DropIf(r3, '-'))
  {
    var r3 := s2[5..];
    assert s2 == "9" + (s2[1..5] + r3);
    DropIfSplit(r3, '-');
  }

  lemma PhoneTextIsRegex(open: bool, ddd: string, close: bool, space: Option<char>,
                         head: string, dash: bool, tail: string)
    requires |ddd| == 2 && AllDigits(ddd)
    requires space.Some? ==> IsJsSpace(space.value)
    requires |head| == 4 && AllDigits(head)
    requires |tail| == 4 && AllDigits(tail)
    ensures PhoneRegex(PhoneText(open, ddd, close, space, head, dash, tail))
  {
  }

  lemma RegexMatchesPhoneOk(open: bool, ddd: string, close: bool, space: Option<char>,
                            head: string, dash: bool, tail: string)
    requires |ddd| == 2 && AllDigits(ddd)
    requires space.Some? ==> IsJsSpace(space.value)
    requires |head| == 4 && AllDigits(head)
    requires |tail| == 4 && AllDigits(tail)
    ensures PhoneOk(PhoneText(open, ddd, close, space, head, dash, tail))
  {
    var s2 := "9" + (head + (Opt(dash, '-') + tail));
    MobileJoin(head, dash, tail);
    var s1 := ddd + (Opt(close, ')') + (SpaceText(space) + s2));
    AreaCodeJoin(ddd, close, space, s2);
    DropOpt(open, '(', s1);
  }

  lemma MobileJoin(head: string, dash: bool, tail: string)
    requires |head| == 4 && AllDigits(head)
    requires |tail| == 4 && AllDigits(tail)
    ensures MobileOk("9" + (head + (Opt(dash, '-') + tail)))
  {
    var s2 := "9" + (head + (Opt(dash, '-') + tail));
    assert s2[1..5] == head;
    assert s2[5..] == Opt(dash, '-') + tail;
    DropOpt(dash, '-', tail);
  }

  lemma AreaCodeJoin(ddd: string, close: bool, space: Option<char>, s2: string)
    requires |ddd| == 2 && AllDigits(ddd)
    requires space.Some? ==> IsJsSpace(space.value)
    requires MobileOk(s2)
    ensures AreaCodeOk(ddd + (Opt(close, ')') + (SpaceText(space) + s2)))
  {
    var r2 := SpaceText(space) + s2;
    var s1 := ddd + (Opt(close, ')') + r2);
    assert s1[2..] == Opt(close, ')') + r2;
    DropOpt(close, ')', r2);
    if space.Some? {
      assert r2[1..] == s2;
    }
    assert DropSpace(r2) == s2;
  }

  lemma {:induction false} DigitsOfAppend(a: string, b: string)
    ensures DigitsOf(a + b) == DigitsOf(a) + DigitsOf(b)
  {
    if a == [] {
      assert a + b == b;
    } else {
      assert (a + b)[1..] == a[1..] + b;
      DigitsOfAppend(a[1..], b);
    }
  }

  lemma {:induction false} DigitsOfDigits(d: string)
    requires AllDigits(d)
    ensures DigitsOf(d) == d
  {
    if d != [] {
      DigitsOfDigits(d[1..]);
    }
  }

  /** The punctuation around the digits: a bracket, a dash or a space, present or not. */
  lemma PunctuationHasNoDigits(c: char, present: bool)
    requires !IsDigit(c)
    ensures DigitsOf(Opt(present, c)) == []
  {
  }

  /** Every accepted phone holds exactly 11 digits (area code, then a mobile number), the third being 9. */
  lemma PhoneDigits(s: string)
    requires PhoneOk(s)
    ensures |DigitsOf(s)| == 11 && DigitsOf(s)[2] == '9'
    ensures AllDigits(DigitsOf(s))
  {
    PhoneOkIsRegex(s);
    var open: bool, ddd: string, close: bool, space: Option<char>, head: string, dash: bool, tail: string :|
      && |ddd| == 2 && AllDigits(ddd)
      && (space.Some? ==> IsJsSpace(space.value))
      && |head| == 4 && AllDigits(head)
      && |tail| == 4 && AllDigits(tail)
      && s == PhoneText(open, ddd, close, space, head, dash, tail);
    PhoneTextDigitCount(open, ddd, close, space, head, dash, tail);
  }

  lemma PhoneTextDigitCount(open: bool, ddd: string, close: bool, space: Option<char>,
                            head: string, dash: bool, tail: string)
    requires |ddd| == 2 && AllDigits(ddd) && |head| == 4 && AllDigits(head) && |tail| == 4 && AllDigits(tail)
    requires space.Some? ==> IsJsSpace(space.value)
    ensures var ds := DigitsOf(PhoneText(open, ddd, close, space, head, dash, tail));
            |ds| == 11 && ds[2] == '9'
  {
    PhoneTextDigits(open, ddd, close, space, head, dash, tail);
    var ds := ddd + ("9" + (head + tail));
    assert |ds| == 11 && ds[2] == '9';
  }

  /** The digits of the part after the area code: the 9, then the eight digits of the number. */
  lemma MobileTextDigits(space: Option<char>, head: string, dash: bool, tail: string)
    requires AllDigits(head) && AllDigits(tail)
    requires space.Some? ==> IsJsSpace(space.value)
    ensures DigitsOf(SpaceText(space) + ("9" + (head + (Opt(dash, '-') + tail)))) == "9" + (head + tail)
  {
    var t7 := Opt(dash, '-') + tail;
    DigitsOfAppend(Opt(dash, '-'), tail);
    PunctuationHasNoDigits('-', dash);
    DigitsOfDigits(tail);
    assert DigitsOf(t7) == tail;
    var t6 := head + t7;
    DigitsOfAppend(head, t7);
    DigitsOfDigits(head);
    assert DigitsOf(t6) == head + tail;
    var t5 := "9" + t6;
    DigitsOfAppend("9", t6);
    DigitsOfDigits("9");
    assert DigitsOf(t5) == "9" + (head + tail);
    DigitsOfAppend(SpaceText(space), t5);
    if space.Some? {
      assert SpaceText(space) == Opt(true, space.value);
      PunctuationHasNoDigits(space.value, true);
    } else {
      assert SpaceText(space) == Opt(false, ' ');
      PunctuationHasNoDigits(' ', false);
    }
  }

  lemma PhoneTextDigits(open: bool, ddd: string, close: bool, space: Option<char>,
                        head: string, dash: bool, tail: string)
    requires AllDigits(ddd) && AllDigits(head) && AllDigits(tail)
    requires space.Some? ==> IsJsSpace(space.value)
    ensures DigitsOf(PhoneText(open, ddd, close, space, head, dash, tail)) == ddd + ("9" + (head + tail))
  {
    var t4 := SpaceText(space) + ("9" + (head + (Opt(dash, '-') + tail)));
    MobileTextDigits(space, head, dash, tail);
    var t3 := Opt(close, ')') + t4;
    DigitsOfAppend(Opt(close, ')'), t4);
    PunctuationHasNoDigits(')', close);
    assert DigitsOf(t3) == "9" + (head + tail);
    var t2 := ddd + t3;
    DigitsOfAppend(ddd, t3);
    DigitsOfDigits(ddd);
    assert DigitsOf(t2) == ddd + ("9" + (head + tail));
    DigitsOfAppend(Opt(open, '('), t2);
    PunctuationHasNoDigits('(', open);
    assert PhoneText(open, ddd, close, space, head, dash, tail) == Opt(open, '(') + t2;
  }

  /** Eleven digits with a 9 third are accepted bare and in the `(XX) 9XXXX-XXXX` layout. */
  lemma PhoneAcceptsMobileNumbers(d: string)
    requires |d| == 11 && AllDigits(d) && d[2] == '9'
    ensures PhoneOk(d)
    ensures PhoneOk("(" + d[..2] + ") " + d[2..7] + "-" + d[7..])
  {
    BareMobileNumber(d);
    FormattedMobileNumber(d);
  }

  lemma BareMobileNumber(d: string)
    requires |d| == 11 && AllDigits(d) && d[2] == '9'
    ensures PhoneOk(d)
  {
    assert d == PhoneText(false, d[..2], false, None, d[3..7], false, d[7..]);
    PhoneOkIsRegex(d);
  }

  lemma FormattedMobileNumber(d: string)
    requires |d| == 11 && AllDigits(d) && d[2] == '9'
    ensures PhoneOk("(" + d[..2] + ") " + d[2..7] + "-" + d[7..])
  {
    var ddd, head, tail := d[..2], d[3..7], d[7..];
    var p5 := "9" + (head + ("-" + tail));
    var p3 := ")" + (" " + p5);
    assert d[2..7] == "9" + head;
    Concat3(d[2..7], "-", tail);
    Concat3("9", head, "-" + tail);
    Concat3(")", " ", p5);
    var a1 := "(" + ddd;
    var a3 := a1 + ") " + d[2..7];
    Concat3(a3, "-", tail);
    Concat3(a1 + ") ", d[2..7], "-" + tail);
    Concat3(a1, ") ", p5);
    Concat3("(", ddd, p3);
    assert "(" + d[..2] + ") " + d[2..7] + "-" + d[7..] == "(" + (ddd + p3);
    assert "(" + (ddd + p3) == PhoneText(true, ddd, true, Some(' '), head, true, tail);
    PhoneOkIsRegex("(" + (ddd + p3));
  }

  lemma Concat3(a: string, b: string, c: string)
    ensures a + b + c == a + (b + c)
  {
  }

  /** `cpf` is accepted iff it is exactly 11 ASCII digits: the `.max(11)` adds nothing. */
  lemma CpfOkIff(cpf: string)
    ensures CpfOk(cpf) <==> |cpf| == 11 && AllDigits(cpf)
  {
    JsLengthBounds(cpf);
  }

  datatype RegisterBody = RegisterBody(
    nome: Option<string>, email: Option<string>, cpf: Option<string>,
    idade: Option<real>, telefone: Option<string>, password: Option<string>)

  datatype LoginBody = LoginBody(identifier: Option<string>, password: Option<string>)

  /**
   * The JSON body of PUT /users/:id. `passwordHash` and `createdAt` (an
   * instant in milliseconds) are not keys of the schema: the schema ignores
   * them, but the body that reaches the handler still carries them when the
   * client sends them.
   */
  datatype UpdateUserBody = UpdateUserBody(
    nome: Option<string>, email: Option<string>, cpf: Option<string>,
    idade: Option<real>, telefone: Option<string>,
    passwordHash: Option<string>, createdAt: Option<int>)

  /** `.min(2).max(100)`, in code units. */
  predicate NomeOk(nome: string) {
    2 <= JsLength(nome) <= 100
  }

  /** `.email().max(100)`, in code units; the e-mail format is the parameter `isEmail`. */
  predicate EmailOk(email: string, isEmail: string -> bool) {
    isEmail(email) && JsLength(email) <= 100
  }

  /** `z.number().int().positive()`. */
  predicate IdadeOk(idade: real) {
    IsInteger(idade) && idade > 0.0
  }

  predicate RegisterSchemaAccepts(b: RegisterBody, isEmail: string -> bool) {
    && b.nome.Some? && NomeOk(b.nome.value)
    && b.email.Some? && EmailOk(b.email.value, isEmail)
    && b.cpf.Some? && CpfOk(b.cpf.value)
    && b.idade.Some? && IdadeOk(b.idade.value)
    && (b.telefone.Some? ==> PhoneOk(b.telefone.value))
    && b.password.Some? && PasswordOk(b.password.value)
  }

  /** Both keys `.min(1)`: at least one code unit, that is, not empty. */
  predicate LoginSchemaAccepts(b: LoginBody) {
    && b.identifier.Some? && |b.identifier.value| >= 1
    && b.password.Some? && |b.password.value| >= 1
  }

  /** updateUserSchema: every key optional, each present one checked as at registration. */
  predicate UpdateUserSchemaAccepts(b: UpdateUserBody, isEmail: string -> bool) {
    && (b.nome.Some? ==> NomeOk(b.nome.value))
    && (b.email.Some? ==> EmailOk(b.email.value, isEmail))
    && (b.cpf.Some? ==> CpfOk(b.cpf.value))
    && (b.idade.Some? ==> IdadeOk(b.idade.value))
    && (b.telefone.Some? ==> PhoneOk(b.telefone.value))
  }

  /** The profile a client registered with is also a valid update, and `{}` is one too. */
  lemma RegisteredProfileIsValidUpdate(b: RegisterBody, isEmail: string -> bool)
    requires RegisterSchemaAccepts(b, isEmail)
    ensures UpdateUserSchemaAccepts(UpdateUserBody(b.nome, b.email, b.cpf, b.idade, b.telefone, None, None), isEmail)
    ensures UpdateUserSchemaAccepts(UpdateUserBody(None, None, None, None, None, None, None), isEmail)
  {
  }

  /** A password registration accepts also passes login's non-empty check. */
  lemma RegisteredPasswordPassesLogin(identifier: string, password: string)
    requires |identifier| >= 1 && PasswordOk(password)
    ensures LoginSchemaAccepts(LoginBody(Some(identifier), Some(password)))
  {
  }
}

=== FILE: wrappers.dfy ===
/** The optional value used for JSON keys that may be absent and for lookups that may fail. */
module Wrappers {

  datatype Option<+T> = None | Some(value: T) {

    /** The wrapped value, or `default` when absent (how an `undefined` field is ignored by an update). */
    function GetOr(default: T): T {
      match this
      case Some(v) => v
      case None => default
    }
  }
}
